=== FILE: README.md ===
# Storage layer of mort, modelled in Dafny

mort is an S3-compatible image server. Its storage layer (`pkg/storage/storage.go`) turns a
logical object reference into a backend key and performs the object operations against a
backend container: `Get`, `Head`, `Set`, `Delete` and an S3-style `List`. It also translates
request headers into stored metadata and back into response headers, and it assembles the
response for a found item.

This project models that layer as pure functions over immutable data:

- `Strings`, `Paths`: the parts of Go's `strings` and `path` packages the layer relies on.
  These are `ToLower`, `HasPrefix`, `HasSuffix`, `TrimPrefix`, `Replace` once, `Split` and
  `Join` on "/", `path.Clean`, `path.Join` and `path.Ext`.
- `Types`: the object reference, backend items, responses and a backend container.
  - Every backend read can answer a value, not-found or an error.
  - A Go map is paired with the order one `range` loop visits it.
- `Assignments`: the map-building loop both metadata translations share. Its key fact is
  that the last writer of a name wins.
- `MetaHeaders`: `prepareMetadata` and `parseMetadata`, with their round trips.
- `Directory`: `isDir`.
- `Keys`: `getKey`.
- `Objects`: `prepareResponse`, `Get`, `Head`, `Set` and `Delete`.
- `Listing`: `List` and its per-item loop.

The backend connection is resolved by the caller and handed in as a `Client`. It is either
unavailable, which the layer answers with 503, or connected to a container. A Go type
assertion that would panic becomes a precondition: `Readable`, `ResponseReady`,
`HeadReady`, `GetReady`, `Listable` and `PageListable`. `Listable` and `PageListable`
also exclude an item with an empty ID, whose last-character index would panic. A header
without a first value becomes the precondition `HasFirstValues`.

Points where the code decides something a reader might expect otherwise:

- `path.Join` cleans its result, so a logical key "photos/" resolves to the native key
  "photos". `Set`'s s3 directory short-circuit tests the resolved key, so it fires only for
  the root "/". See Findings.
- `prepareResponse` looks up the exact-case `Content-Type` metadata name first, then
  `content-type`.
- `parseMetadata`'s s3 loop switches on the stored name as it is, not lower-cased. The
  first loop lower-cases it.
- In `List`, an item deeper than the prefix is cut to as many segments as the prefix has.
  That cut key is both the common prefix and the key of its `Contents` entry. Files `a/b`,
  `a/c` and `a/d/e` under the prefix `a` therefore give one common prefix `a/` and three
  entries all keyed `a`. An item that yields a common prefix is still listed as an entry.
- `path.Join` also cleans the requested listing prefix, so a prefix "a/" becomes "a" and
  lists exactly as "a" does.
- `List` on local-meta answers a missing prefix with 404 and the logical key as the body,
  not the JSON not-found body.

## Model

| member | source | states |
|---|---|---|
| Keys.GetKey | pkg/storage/storage.go:345-353 | The native key is the path prefix joined with the logical key. It has no doubled separator and ends in one only when it is the root "/". For b2 it has no leading separator and differs from the joined key by at most one leading "/". |
| Keys.B2KeyIsTrimmedKey | pkg/storage/storage.go:345-353 | The b2 key is the key any other kind resolves, with one leading "/" trimmed. |
| Keys.TrailingSlashOnlyAtRoot | pkg/storage/storage.go:345-353 | A resolved key ending in "/" is the root "/", and so is the joined key. |
| Keys.LeadingSlashJoin | pkg/storage/storage.go:345-353 | Prefix "/a" and key "/b" resolve to "/a/b" for s3 and to "a/b" for b2. |
| Keys.TrailingSlashDropped | pkg/storage/storage.go:345-353 | A logical key "a/" resolves to "a", losing its trailing separator. |
| Paths.Clean | pkg/storage/storage.go:348-350 | `path.Clean`, used by `path.Join`: never empty, no doubled separator, a trailing separator only for "/", and rooted exactly when the input is. |
| Paths.CleanIdempotent | pkg/storage/storage.go:348-350 | Cleaning a cleaned path changes nothing. |
| Paths.CleanTrailingSlash | pkg/storage/storage.go:348-350 | A trailing separator on a non-empty path is dropped: the path cleans as it would without it. |
| Paths.CleanDoubleSlash | pkg/storage/storage.go:348-350 | A doubled separator cleans exactly like a single one. |
| Paths.ScanAppend | pkg/storage/storage.go:348-350 | Cleaning scans elements left to right: two runs scan as the first, then the second. |
| Paths.CleanRender | pkg/storage/storage.go:348-350 | A path spelled from a cleaned element stack is already clean. |
| Paths.Join | pkg/storage/storage.go:348-350 | `path.Join` of two parts: empty exactly when both are, with no doubled separator, a trailing one only for "/", and a non-empty result that cleaning leaves unchanged. |
| Paths.Ext | pkg/storage/storage.go:394 | `path.Ext`: a non-empty result is a suffix of the path that starts with its only dot and has no separator. An empty result means the last element has no dot. |
| Strings.ToLower | pkg/storage/storage.go:412 | `strings.ToLower` maps each character by itself, keeps the length, and leaves no upper-case letter. |
| Strings.DeleteFirst | pkg/storage/storage.go:414 | `strings.Replace(s, pat, "", 1)` removes the first occurrence of `pat`, wherever it starts: the result is what lies before it followed by what lies after it. Without an occurrence it is `s` itself. |
| Strings.SplitSlash | pkg/storage/storage.go:216-217 | `strings.Split(s, "/")` gives at least one part, none holding a separator, and joining the parts gives `s` back. |
| Strings.SplitJoin | pkg/storage/storage.go:216-218 | Splitting undoes joining when no part holds a separator. |
| Strings.SplitAppend | pkg/storage/storage.go:216-217 | The parts of `s + "/" + t` are the parts of `s` followed by the parts of `t`. |
| Strings.JoinAppend | pkg/storage/storage.go:222 | Joining two non-empty part lists is joining each with a separator between them. |
| Strings.JoinSlash | pkg/storage/storage.go:222 | `strings.Join(parts, "/")` of no parts is "", and of one part is that part. |
| Strings.JoinCount | pkg/storage/storage.go:222 | Joining separator-free parts puts exactly one separator between neighbours: one fewer than there are parts. |
| Strings.SplitCount | pkg/storage/storage.go:216-217 | `strings.Split(s, "/")` gives one more part than `s` has separators. |
| Strings.HasPrefix | pkg/storage/storage.go:413 | `strings.HasPrefix(s, p)` holds exactly when `s` is `p` followed by the rest of `s`. |
| Strings.HasSuffix | pkg/storage/storage.go:113 | `strings.HasSuffix(s, x)` holds exactly when `s` is the rest of `s` followed by `x`. |
| Strings.TrimPrefix | pkg/storage/storage.go:348 | `strings.TrimPrefix(s, p)` gives the rest after `p` when `s` starts with `p`, and `s` itself otherwise. |
| MetaHeaders.PrepareMetadata | pkg/storage/storage.go:407-425 | Every kept header is stored under its stored name. Every stored name is lower-case and comes from a kept header, holding that header's first value as a string. |
| MetaHeaders.Kept | pkg/storage/storage.go:411-420 | Every "x-amz-meta-" header and every content-type header is kept. An etag header is kept exactly when the kind is not s3. A kept name starts "x-" or is content-type or etag, lower-cased. |
| MetaHeaders.StoredName | pkg/storage/storage.go:412-419 | The stored name is lower-case. Outside s3 it is the lower-cased header name. For s3 it is the lower-cased name with its first "x-amz-meta-" removed wherever it starts, and the lower-cased name itself when it holds none. |
| MetaHeaders.PrepareStoresFirstValue | pkg/storage/storage.go:407-425 | When no two kept headers share a stored name, each stored name holds its own header's first value, whatever the visiting order. |
| MetaHeaders.PrepareOrderIrrelevant | pkg/storage/storage.go:408-409 | Without colliding names, the Go map iteration order does not change the stored map. |
| MetaHeaders.PrepareNoLarger | pkg/storage/storage.go:408 | The stored map has no more names than the header map, the capacity the code allocates. |
| MetaHeaders.S3StoredNames | pkg/storage/storage.go:411-415 | For s3, each stored name comes from a custom-metadata or content-type header, lower-cased, with the first "x-amz-meta-" deleted. |
| MetaHeaders.S3CustomStored | pkg/storage/storage.go:411-415 | For s3, a header starting "x-amz-meta-" is stored under the rest of its lower-cased name. |
| MetaHeaders.S3StoredUnderSuffix | pkg/storage/storage.go:411-415 | Without collisions, that s3 entry holds the header's first value. |
| MetaHeaders.ContentTypeName | pkg/storage/storage.go:411-420 | A header named content-type in any capitalisation is kept by every kind and stored as "content-type". |
| MetaHeaders.ContentTypeLower | pkg/storage/storage.go:412 | The canonical `Content-Type` lower-cases to "content-type". |
| MetaHeaders.ContentTypeUntouched | pkg/storage/storage.go:414 | Deleting "x-amz-meta-" from "content-type" leaves it unchanged. |
| MetaHeaders.EtagKeptExceptS3 | pkg/storage/storage.go:411-420 | An etag header is kept exactly when the kind is not s3. |
| MetaHeaders.OtherKindsStoredNames | pkg/storage/storage.go:416-420 | Outside s3, every stored name is a custom-metadata name, "content-type" or "etag", and an etag header is stored. |
| MetaHeaders.MetaPrefixes | pkg/storage/storage.go:413-414 | "x-amz-meta-" extends "x-amz-meta", which extends "x-". |
| MetaHeaders.ParseMetadata | pkg/storage/storage.go:427-455 | Only forwarded names are produced, plus "content-type" for s3. Every forwarded metadata name is copied lower-cased. Each header holds the value of a metadata entry it came from. For s3, every stored name's s3 header holds that name's value. |
| MetaHeaders.S3Headers | pkg/storage/storage.go:441-453 | The s3 loop emits one header per stored name, holding that name's value, and nothing else. |
| MetaHeaders.ForwardedHeaders | pkg/storage/storage.go:428-439 | The first loop emits exactly the forwarded names, lower-cased, each holding the value of one metadata entry with that name. |
| MetaHeaders.S3Header | pkg/storage/storage.go:444-449 | A name other than cache-control and content-type is emitted behind "x-amz-meta-". Those two are emitted as they are. |
| MetaHeaders.S3HeaderInjective | pkg/storage/storage.go:444-449 | Distinct stored names get distinct s3 headers. |
| MetaHeaders.S3HeaderShape | pkg/storage/storage.go:444-449 | Every s3 header is cache-control, content-type, or starts "x-". |
| MetaHeaders.S3HeadersComplete | pkg/storage/storage.go:443-451 | In the s3 loop, later writes never overwrite another name's header. |
| MetaHeaders.ForwardedVerbatim | pkg/storage/storage.go:428-439 | Outside s3, with no two names equal up to case, a forwarded name comes back holding its own value. |
| MetaHeaders.S3ParsePrefixed | pkg/storage/storage.go:441-453 | For s3, a stored name other than the two unprefixed ones comes back behind "x-amz-meta-" with its value. |
| MetaHeaders.S3RoundTrip | pkg/storage/storage.go:407-455 | For s3, an "x-amz-meta-" header stored by `prepareMetadata` comes back from `parseMetadata` under its lower-cased name with its first value. The exception is a suffix of cache-control or content-type. |
| MetaHeaders.S3ContentTypeRoundTrip | pkg/storage/storage.go:407-455 | For s3, a stored content type comes back as "content-type" with its first value. |
| MetaHeaders.ForwardedStoredName | pkg/storage/storage.go:428-439 | Outside s3, a lower-case forwarded stored name comes back under itself with its value. |
| MetaHeaders.OtherKindsRoundTrip | pkg/storage/storage.go:407-439 | Outside s3, a custom-metadata header comes back under its lower-cased name with its first value. |
| Assignments.AssignUpTo | pkg/storage/storage.go:408-422 | After a map-building loop, every renamed key's name is present and holds the value of the last key renamed to it. |
| Assignments.AssignInjective | pkg/storage/storage.go:408-422 | When no two keys share a name, each name holds its one key's value. |
| Directory.IsDir | pkg/storage/storage.go:457-481 | Unreadable metadata means not a directory. Otherwise an `is_dir` flag decides, then a lower-case content-type equal to `application/directory`. A result of true needs a size of 0 or one of the two hints. |
| Directory.FlagOverridesSize | pkg/storage/storage.go:462-465 | With an `is_dir` flag, neither the size nor the content type changes the answer. |
| Directory.ContentTypeOverridesSize | pkg/storage/storage.go:467-469 | Without the flag, a content-type hint decides whatever the size. |
| Directory.SizeDecidesWithoutHints | pkg/storage/storage.go:471-480 | Without hints, an item is a directory exactly when its size reads as 0. |
| Directory.DirectoryExamples | pkg/storage/storage.go:457-481 | Flagged and directory-typed items are directories. An empty item without hints is one; a non-empty one is not. |
| Objects.ContentTypeOf | pkg/storage/storage.go:389-402 | A stored `Content-Type` entry gives the content type, else a stored `content-type` entry does. No content type means no such entry, no known extension and not a directory. A directory type without a stored entry comes from `isDir`. |
| Objects.StoredContentTypeWins | pkg/storage/storage.go:389-392 | A stored content type decides whatever the request path and size, and it is the `Content-Type` entry when there is one, else the `content-type` entry. |
| Objects.ExtensionBeforeDirectory | pkg/storage/storage.go:393-401 | Without a stored type, a known extension decides. Otherwise the directory type is set exactly when `isDir` holds. |
| Objects.PrepareResponse | pkg/storage/storage.go:355-405 | A 500 exactly when metadata, etag or modification time cannot be read. Otherwise a 200 carries the given body, the modification time, the readable size, the resolved content type and exactly the copied metadata headers. An `ETag` header is present exactly when the etag is non-empty. |
| Objects.WithEtag | pkg/storage/storage.go:384-386 | The copied headers, plus `ETag` exactly when the etag is non-empty. |
| Objects.EtagNotCopied | pkg/storage/storage.go:427-455 | `parseMetadata` never produces a header named `ETag`, so the etag is never overwritten. |
| Objects.Head | pkg/storage/storage.go:73-96 | 503 without a backend, 500 on a failed lookup, 404 with the not-found body for a missing key. A found item's answer is exactly the response assembled from it without a body. A 200 means the key holds an item. |
| Objects.Get | pkg/storage/storage.go:36-70 | As `Head` up to the lookup. A directory gives 404 with an XML content type, unopenable content gives 500. Otherwise the answer is exactly the response assembled from the item, with its content as the body. |
| Objects.HeadIgnoresContent | pkg/storage/storage.go:73-96 | `Head` does not depend on the stored content or on whether it opens. |
| Objects.PrepareIgnoresContent | pkg/storage/storage.go:355-405 | Response assembly does not depend on the content. |
| Objects.GetAgreesWithHead | pkg/storage/storage.go:36-96 | For an openable regular file, `Get` equals `Head` with the content as body. Outside the directory and unopenable cases they agree entirely. |
| Objects.HeaderGet | pkg/storage/storage.go:127 | The first value under that exact name when there is one. A non-empty result always is such a first value. |
| Objects.Stored | pkg/storage/storage.go:119 | A written item has the native key as id, the data as content, the given length, and `prepareMetadata`'s map. |
| Objects.SkipsWrite | pkg/storage/storage.go:110-113 | A write is answered without touching the backend exactly for s3, a zero content length, and a tested key whose last character is a separator. |
| Objects.Write | pkg/storage/storage.go:99-129 | 503 without a backend. A skipped write answers 200 untouched. A failed put answers 500 untouched. Otherwise a 200 with the request's content type, and the item is stored under the native key with nothing else changed. |
| Objects.Set | pkg/storage/storage.go:99-129 | The full `Write` outcome with the directory test on the resolved key: 503, a skipped 200, a failed put's 500, or a 200 that stores the item under the native key and changes nothing else. |
| Objects.SetSkipsOnlyAtRoot | pkg/storage/storage.go:110-118 | As written, the s3 short-circuit fires only when the resolved key is "/". |
| Objects.SetDirectoryCounterexample | pkg/storage/storage.go:110-118 | An empty s3 write to "photos/" stores an item under "photos", where the intended version touches nothing. |
| Objects.SetIntended | pkg/storage/storage.go:99-129 | The full `Write` outcome with the directory test on the logical key, so a zero-length s3 write to a key ending in "/" answers 200 and touches nothing. |
| Objects.SetIntendedSkipsDirectories | pkg/storage/storage.go:110-118 | An empty s3 write to a logical key ending in "/" answers 200 and leaves the backend untouched. |
| Objects.WriteThenHead | pkg/storage/storage.go:73-129 | After a write that stored the item (not skipped, answered 200), with no colliding stored names, no `is_dir` entry and a readable key, `Head` answers 200 with the written length and the backend's modification time. `ETag` is present exactly when the backend's etag is non-empty. A named request content type comes back. |
| Objects.StoredReady | pkg/storage/storage.go:355-405 | The item a write stores is one the response assembly accepts. |
| Objects.ContentTypeStored | pkg/storage/storage.go:407-425 | A `Content-Type` request header is stored as "content-type" with its value, and nothing as `Content-Type`. |
| Objects.Delete | pkg/storage/storage.go:132-156 | 503 without a backend. Otherwise the answer follows `Head`: a 200 removes the native key and returns `Head`'s answer, or 500 when the removal fails; a 404 answers 200 with no content; any other answer is returned unchanged. Nothing else changes. |
| Objects.DeleteIdempotent | pkg/storage/storage.go:132-156 | After a delete answered 200, deleting again answers 200 with no content and changes nothing. |
| Objects.DeleteExisting | pkg/storage/storage.go:132-156 | Deleting a readable, removable stored item answers 200 and removes exactly its key, and deleting it again answers 200 with no content and changes nothing. |
| Objects.DeleteOnlyOwnKey | pkg/storage/storage.go:132-156 | A delete leaves every other key's item as it was. |
| Listing.BaseKey | pkg/storage/storage.go:216-233 | For a prefix of at least one segment, which is every prefix `List` uses (splitting "" gives one segment), a deeper item's key is the start of its id: the id continues with a separator after it, and the key splits into exactly the id's first segments. Any other item's key is its name. |
| Listing.DeepCountsSeparators | pkg/storage/storage.go:216-221 | An item lies below a prefix of `depth` segments, so its id is cut, exactly when the id holds at least `depth` separators. |
| Listing.MarkerEndsInSeparator | pkg/storage/storage.go:241 | An item is a directory marker exactly when its id has the suffix "/". |
| Listing.CutKey | pkg/storage/storage.go:216-218 | A path cut to its first segments is a prefix of the path followed by a separator, and splits into those segments. |
| Listing.Groups | pkg/storage/storage.go:221-238 | A deeper item always offers its key as a common prefix. Any other item offers it exactly when it is a directory, which needs readable metadata. |
| Listing.EntryOf | pkg/storage/storage.go:241-248 | A directory marker's entry has the key plus "/" and size 0. Otherwise an entry exists exactly when the key is non-empty and carries the readable size, or 0. Every entry has class `STANDARD`, the item's time and its readable etag, or "". |
| Listing.Entries | pkg/storage/storage.go:246-248 | No more entries than items. Every item's entry is listed, and every listed entry is some item's. How many times and in what order is proved by `EntriesInOrder`. |
| Listing.EntryIndices | pkg/storage/storage.go:246-248 | The positions of the items that have an entry, in increasing order. |
| Listing.EntryIndicesComplete | pkg/storage/storage.go:246-248 | No item that has an entry is missing from those positions. |
| Listing.EntriesInOrder | pkg/storage/storage.go:246-248 | The i-th listed entry is the entry of the i-th item that has one, so entries keep the items' order and multiplicity. |
| Listing.Step | pkg/storage/storage.go:224-252 | One iteration only appends, by at most one entry and one prefix. A prefix is added only for a key not seen before, which is then remembered. |
| Listing.CollectUpTo | pkg/storage/storage.go:210-254 | After n items, the grouped keys and entries are as defined. The prefixes are distinct, each a grouped key plus "/". Every non-empty grouped key appears. |
| Listing.Collect | pkg/storage/storage.go:210-254 | No more entries or prefixes than items. Every entry has a key and class `STANDARD`. The prefixes end in "/" and are distinct. |
| Listing.CollectPrefixesComplete | pkg/storage/storage.go:221-239 | Every item that groups under a non-empty key contributes that key plus "/". |
| Listing.CollectPrefixesSound | pkg/storage/storage.go:221-252 | Every common prefix is some grouping item's key plus "/". |
| Listing.CollectListsEntry | pkg/storage/storage.go:246-248 | Every item's entry is listed. |
| Listing.CollectListsMarker | pkg/storage/storage.go:241-248 | A directory marker is listed with its key plus "/" and size 0, even when it also grouped. |
| Listing.FileBelow | pkg/storage/storage.go:215-223 | Under a one-segment prefix `a`, a file `a/t` groups and is listed under `a`. |
| Listing.ViewsBelowOneSegment | pkg/storage/storage.go:210-254 | Three files below the one-segment prefix `a` all give the grouping view of key `a`. |
| Listing.OneKeyListing | pkg/storage/storage.go:210-254 | Repeated views of one key give one prefix and one entry per view. |
| Listing.ListingBelowOneSegment | pkg/storage/storage.go:210-254 | Files a/b, a/c and a/d/e under prefix `a` give the single prefix `a/` and three entries keyed `a`. |
| Listing.EffectivePrefix | pkg/storage/storage.go:167 | The effective prefix is empty only when both prefixes are, has no doubled separator, and ends in one only when it is "/". |
| Listing.PrefixMissing | pkg/storage/storage.go:169-176 | Only local-meta refuses a prefix. A refused prefix is neither stored nor unreadable, and any other non-root prefix that is neither is refused. |
| Listing.List | pkg/storage/storage.go:160-264 | 503 without a backend. On local-meta, a missing non-root prefix gives 404 with the logical key. An unreadable page gives 500. Otherwise a 200 with an XML content type and the untruncated listing under bucket, effective prefix and page marker. |

## Left out

- `getClient` (storage.go:266-343) is not modelled. The connection cache, its locks, the per-kind dialing and the creation of a missing local container are replaced by the `Client` parameter, which is unavailable or connected to a container.
- XML marshalling of the listing and its error branch (storage.go:256-259) are left out. The listing is returned as a `ListResult` record.
- Time formatting is left out. `Last-Modified` and each entry's `LastModified` carry the raw time value, and a time `List` cannot read is `None`, not Go's zero time.
- `mime.TypeByExtension` is the parameter `mime`: the system's media-type table is outside the layer.
- The etag and modification time a backend assigns on `Put` are the parameters `etag` and `now`. `List`'s page of items is the parameter `page`, because backend paging is outside the layer.
- Logging, metrics and the response wrapper's stream handling are left out.
- `http.Header` canonicalisation in `res.Set` is left out: response header names are kept as `parseMetadata` writes them. `HeaderGet` looks up the exact name.
- Case mapping covers ASCII letters only. `strings.ToLower` maps other Unicode letters too.
- Go map iteration order is unspecified. Each map carries one fixed order. `PrepareOrderIrrelevant` shows the order does not matter when stored names do not collide; when they do, the last one visited wins.
- A panicking type assertion is not modelled as a crash. It is excluded by the preconditions named above. A stored s3 `is_dir` entry would be a string and panic `isDir`, so `WriteThenHead` and `StoredReady` require that none is stored.
- Listing.Listable: an item with an empty ID panics at storage.go:241, where `itemID[len(itemID)-1]` indexes out of range. This crash is not modelled; the precondition excludes such items, as `PageListable` does for every item of a page.
- Listing.Collect: it states bounds, shape and distinctness. Membership in both directions is stated by `CollectPrefixesComplete`, `CollectPrefixesSound`, `CollectListsEntry` and `CollectListsMarker`.

## Findings

| source | as written | input that shows it | evidently intended | confidence | as-written member | corrected member |
|---|---|---|---|---|---|---|
| pkg/storage/storage.go:110-118 | The s3 directory short-circuit tests `strings.HasSuffix(key, "/")` on the key from `getKey`. `path.Join` has already removed any trailing separator, so only the root "/" can pass. | `Set` on s3 with logical key "photos/", empty path prefix and content length 0 stores an empty item under "photos". | A zero-length write to a logical key ending in "/" is answered 200 without touching the backend, as the comment on the branch says. | not executed | Objects.SetDirectoryCounterexample | Objects.SetIntendedSkipsDirectories |

=== FILE: assign.dfy ===
/** The map-building loop both metadata translations are made of:
    `for k := range src { if name, ok := rename(k); ok { dst[name] = value(k) } }`,
    with the keys visited in a given order. A later assignment to a name overwrites
    an earlier one. */
module Assignments {
  import opened Types

  /** Among the first `n` keys, the `j`-th is the last one renamed to `s`. */
  ghost predicate LastAssigned(keys: seq<string>, rename: string -> Option<string>, n: nat, s: string, j: int)
    requires n <= |keys|
  {
    0 <= j < n && rename(keys[j]) == Some(s)
    && forall j' :: j < j' < n ==> rename(keys[j']) != Some(s)
  }

  /** Each name of `m` holds the value of the last of the first `n` keys renamed to it. */
  ghost predicate LastWins<W>(keys: seq<string>, rename: string -> Option<string>, value: string -> W, n: nat, m: map<string, W>)
    requires n <= |keys|
  {
    forall s :: s in m ==> exists j :: LastAssigned(keys, rename, n, s, j) && m[s] == value(keys[j])
  }

  /** The destination map after the loop has visited the first `n` keys: every
      renamed key is present, each name holds the value of the last key renamed to
      it. */
  function AssignUpTo<W>(keys: seq<string>, rename: string -> Option<string>, value: string -> W, n: nat): (m: Enumerated<W>)
    requires n <= |keys|
    ensures forall j :: 0 <= j < n && rename(keys[j]).Some? ==> rename(keys[j]).value in m.entries
    ensures LastWins(keys, rename, value, n, m.entries)
    decreases n
  {
    if n == 0 then Ordered(map[], [])
    else
      var m0 := AssignUpTo(keys, rename, value, n - 1);
      var k := keys[n - 1];
      match rename(k)
      case None =>
        SkipKeepsLastWins(keys, rename, value, n, m0.entries);
        m0
      case Some(name) =>
        var m := Assign(m0, name, value(k));
        AssignKeepsLastWins(keys, rename, value, n, m0.entries, name);
        m
  }

  /** A key that is not renamed leaves every name's last writer as it was. */
  lemma SkipKeepsLastWins<W>(keys: seq<string>, rename: string -> Option<string>, value: string -> W, n: nat, m: map<string, W>)
    requires 0 < n <= |keys| && rename(keys[n - 1]).None?
    requires LastWins(keys, rename, value, n - 1, m)
    ensures LastWins(keys, rename, value, n, m)
  {
    forall s | s in m ensures exists j :: LastAssigned(keys, rename, n, s, j) && m[s] == value(keys[j]) {
      var j :| LastAssigned(keys, rename, n - 1, s, j) && m[s] == value(keys[j]);
      assert LastAssigned(keys, rename, n, s, j);
    }
  }

  /** A renamed key becomes the last writer of its name and of no other. */
  lemma AssignKeepsLastWins<W>(keys: seq<string>, rename: string -> Option<string>, value: string -> W, n: nat, m: map<string, W>, name: string)
    requires 0 < n <= |keys| && rename(keys[n - 1]) == Some(name)
    requires LastWins(keys, rename, value, n - 1, m)
    ensures LastWins(keys, rename, value, n, m[name := value(keys[n - 1])])
  {
    var m' := m[name := value(keys[n - 1])];
    forall s | s in m' ensures exists j :: LastAssigned(keys, rename, n, s, j) && m'[s] == value(keys[j]) {
      if s == name {
        assert LastAssigned(keys, rename, n, s, n - 1);
      } else {
        var j :| LastAssigned(keys, rename, n - 1, s, j) && m[s] == value(keys[j]);
        assert LastAssigned(keys, rename, n, s, j);
      }
    }
  }

  /** When the visited keys are distinct and `rename` sends no two of them to the
      same name, each name holds the value of the one key renamed to it. */
  lemma AssignInjective<W>(keys: seq<string>, rename: string -> Option<string>, value: string -> W, j: nat)
    requires j < |keys|
    requires rename(keys[j]).Some?
    requires forall i, i' :: 0 <= i < i' < |keys| && rename(keys[i]).Some? ==> rename(keys[i]) != rename(keys[i'])
    ensures var m := AssignUpTo(keys, rename, value, |keys|);
      rename(keys[j]).value in m.entries && m.entries[rename(keys[j]).value] == value(keys[j])
  {
    var m := AssignUpTo(keys, rename, value, |keys|);
    var s := rename(keys[j]).value;
    var i :| LastAssigned(keys, rename, |keys|, s, i) && m.entries[s] == value(keys[i]);
    if i < j {
      assert rename(keys[i]) == rename(keys[j]);
    }
  }
}

=== FILE: directory.dfy ===
/** Directory detection (`isDir`), shared by the object operations and the listing. */
module Directory {
  import opened Types

  const DirectoryType := "application/directory"

  /** The metadata values `isDir` reads have the Go types its assertions expect:
      `is_dir` a boolean, and otherwise `content-type` a string. */
  predicate DirHintsTyped(it: Item) {
    it.metadata.Some? ==>
      var m := it.metadata.value.entries;
      && ("is_dir" in m ==> m["is_dir"].Bool?)
      && ("is_dir" !in m && "content-type" in m ==> m["content-type"].Str?)
  }

  /** `isDir`: a precedence chain over the item's hints. An unreadable metadata map
      makes it a regular file; otherwise an `is_dir` flag decides, then a lower-case
      `content-type`, and only without both does the size matter, where an
      unreadable size again means a regular file. */
  function IsDir(it: Item): (r: bool)
    requires DirHintsTyped(it)
    ensures it.metadata.None? ==> !r
    ensures it.metadata.Some? && "is_dir" in it.metadata.value.entries ==>
      (r <==> it.metadata.value.entries["is_dir"] == Bool(true))
    ensures it.metadata.Some? && "is_dir" !in it.metadata.value.entries && "content-type" in it.metadata.value.entries ==>
      (r <==> it.metadata.value.entries["content-type"] == Str(DirectoryType))
    ensures r ==> it.metadata.Some? && (it.size == Some(0) || "is_dir" in it.metadata.value.entries || "content-type" in it.metadata.value.entries)
  {
    match it.metadata
    case None => false
    case Some(md) =>
      var m := md.entries;
      if "is_dir" in m then m["is_dir"].b
      else if "content-type" in m then m["content-type"].s == DirectoryType
      else if it.size.None? then false
      else it.size.value == 0
  }

  /** With an `is_dir` flag present, neither the size nor the content type matters. */
  lemma FlagOverridesSize(it: Item, size: Option<int>, ct: MetaValue)
    requires it.metadata.Some? && "is_dir" in it.metadata.value.entries
    requires DirHintsTyped(it)
    ensures var m := it.metadata.value;
      var m' := Assign(m, "content-type", ct);
      var it' := it.(size := size, metadata := Some(m'));
      DirHintsTyped(it') && IsDir(it') == IsDir(it)
  {
  }

  /** With no `is_dir` flag, a `content-type` hint decides whatever the size. */
  lemma ContentTypeOverridesSize(it: Item, size: Option<int>)
    requires it.metadata.Some? && "is_dir" !in it.metadata.value.entries
    requires "content-type" in it.metadata.value.entries
    requires DirHintsTyped(it)
    ensures DirHintsTyped(it.(size := size)) && IsDir(it.(size := size)) == IsDir(it)
  {
  }

  /** With neither hint, an item is a directory exactly when its size reads as 0. */
  lemma SizeDecidesWithoutHints(it: Item)
    requires it.metadata.Some?
    requires "is_dir" !in it.metadata.value.entries && "content-type" !in it.metadata.value.entries
    ensures DirHintsTyped(it) && (IsDir(it) <==> it.size == Some(0))
  {
  }

  /** Four items: one flagged `is_dir`, one of size 5 typed `application/directory`,
      an empty one without hints and a non-empty one without hints. The first three
      are directories, the last is not. */
  lemma DirectoryExamples(id: string, n: int)
    requires n != 0
    ensures var none: Metadata := Ordered(map[], []);
      var flagged: Metadata := Ordered(map["is_dir" := Bool(true)], ["is_dir"]);
      var typed: Metadata := Ordered(map["content-type" := Str(DirectoryType)], ["content-type"]);
      && IsDir(Item(id, id, Some(n), Some(""), Some(0), Some(flagged), None))
      && IsDir(Item(id, id, Some(n), Some(""), Some(0), Some(typed), None))
      && IsDir(Item(id, id, Some(0), Some(""), Some(0), Some(none), None))
      && !IsDir(Item(id, id, Some(n), Some(""), Some(0), Some(none), None))
  {
  }
}

=== FILE: keys.dfy ===
/** Native key resolution (`getKey`): the configured path prefix joined with the
    logical key, with one leading separator trimmed for the b2 kind. */
module Keys {
  import opened Strings
  import opened Paths
  import opened Types

  /** The key as every kind but b2 resolves it. */
  function JoinedKey(obj: FileObject): string {
    Join(obj.storage.pathPrefix, obj.key)
  }

  /** `getKey`. A resolved key never holds a doubled separator and ends in one only
      when it is the root "/" itself; for b2 it never starts with a separator and is
      the joined key with exactly one leading separator removed. */
  function GetKey(obj: FileObject): (r: string)
    ensures NoDoubleSlash(r)
    ensures HasSuffix(r, "/") ==> r == "/" && obj.storage.kind != B2
    ensures obj.storage.kind != B2 ==> r == JoinedKey(obj)
    ensures obj.storage.kind == B2 ==> !HasPrefix(r, "/")
    ensures obj.storage.kind == B2 ==> JoinedKey(obj) == r || JoinedKey(obj) == "/" + r
  {
    var j := JoinedKey(obj);
    match obj.storage.kind
    case B2 =>
      TrimmedKey(j);
      TrimPrefix(j, "/")
    case _ => j
  }

  /** Trimming one leading separator from a joined key leaves no leading or trailing
      separator and no doubled one. */
  lemma TrimmedKey(j: string)
    requires NoDoubleSlash(j) && (HasSuffix(j, "/") ==> j == "/")
    ensures var r := TrimPrefix(j, "/");
      && NoDoubleSlash(r) && !HasPrefix(r, "/") && !HasSuffix(r, "/")
      && (j == r || j == "/" + r)
  {
    var r := TrimPrefix(j, "/");
    if HasPrefix(j, "/") {
      assert j == "/" + r;
      forall i | 0 <= i < |r| - 1 ensures !(r[i] == '/' && r[i + 1] == '/') {
        assert r[i] == j[i + 1] && r[i + 1] == j[i + 2];
      }
      if |r| > 0 {
        assert j[0] == '/' && r[0] == j[1];
        assert r[..1] == [r[0]];
        assert |j| > 1 && j[|j| - 1..] == [j[|j| - 1]];
        assert r[|r| - 1] == j[|j| - 1];
        assert r[|r| - 1..] == [r[|r| - 1]];
      }
    } else {
      assert r == j;
      assert j == "/" ==> HasPrefix(j, "/");
    }
  }

  /** The key b2 uses and the key the other kinds use differ by one leading separator
      at most, whatever the kind names. */
  lemma B2KeyIsTrimmedKey(obj: FileObject, other: Kind)
    requires obj.storage.kind == B2 && other != B2
    ensures var plain := GetKey(obj.(storage := obj.storage.(kind := other)));
      GetKey(obj) == TrimPrefix(plain, "/")
  {
  }

  /** A key ending in a separator is the root: the only one a trailing-separator test
      on a resolved key can ever accept. */
  lemma TrailingSlashOnlyAtRoot(obj: FileObject)
    requires HasSuffix(GetKey(obj), "/")
    ensures GetKey(obj) == "/"
    ensures Join(obj.storage.pathPrefix, obj.key) == "/"
  {
  }

  /** Joining "/a" and "/b", for real elements a and b, gives "/a/b" for s3 and
      "a/b" for b2: the b2 key loses its leading separator. */
  lemma LeadingSlashJoin(a: string, b: string, bucket: string)
    requires IsElement(a) && a != ".." && IsElement(b) && b != ".."
    ensures GetKey(FileObject("/" + b, bucket, "/" + b, StorageConfig(S3, "/" + a))) == "/" + a + "/" + b
    ensures GetKey(FileObject("/" + b, bucket, "/" + b, StorageConfig(B2, "/" + a))) == a + "/" + b
  {
    RootedJoin(a, b);
    assert ("/" + a + "/" + b)[1..] == a + "/" + b;
  }

  /** `path.Join("/a", "/b")` is "/a/b" for real elements a and b. */
  lemma RootedJoin(a: string, b: string)
    requires IsElement(a) && a != ".." && IsElement(b) && b != ".."
    ensures Join("/" + a, "/" + b) == "/" + a + "/" + b
  {
    var p := ("/" + a) + "/" + ("/" + b);
    RootedSplit(a, b);
    RootedScan(a, b);
    assert JoinSlash([a, b]) == a + "/" + b;
    assert Clean(p) == Render([a, b], true);
    assert Render([a, b], true) == "/" + (a + "/" + b);
    assert "/" + (a + "/" + b) == "/" + a + "/" + b;
    assert Join("/" + a, "/" + b) == Clean(p);
  }

  lemma RootedSplit(a: string, b: string)
    requires '/' !in a && '/' !in b
    ensures SplitSlash(("/" + a) + "/" + ("/" + b)) == ["", a, "", b]
  {
    SplitNoSlash(b);
    SplitCons("", b);
    SplitCons(a, "/" + b);
    SplitCons("", a + "/" + ("/" + b));
    assert ("/" + a) + "/" + ("/" + b) == "" + "/" + (a + "/" + ("" + "/" + b));
  }

  lemma RootedScan(a: string, b: string)
    requires IsElement(a) && a != ".." && IsElement(b) && b != ".."
    ensures Scan([], ["", a, "", b], true) == [a, b]
  {
    assert Step([], "", true) == [] && Step([], a, true) == [a];
    assert Step([a], "", true) == [a] && Step([a], b, true) == [a, b];
    assert Scan([a, b], [], true) == [a, b];
    assert Scan([a], [b], true) == [a, b];
    assert Scan([a], ["", b], true) == [a, b];
    assert Scan([], [a, "", b], true) == [a, b];
  }

  /** A logical key "a/", for a real element a, loses its trailing separator. */
  lemma TrailingSlashDropped(a: string, bucket: string, url: string)
    requires IsElement(a) && a != ".."
    ensures GetKey(FileObject(a + "/", bucket, url, StorageConfig(S3, ""))) == a
  {
    SplitNoSlash("");
    SplitCons(a, "");
    assert a + "/" + "" == a + "/";
    assert SplitSlash(a + "/") == [a, ""];
    assert Step([], a, false) == [a] && Step([a], "", false) == [a];
    assert Scan([a], [], false) == [a];
    assert Scan([a], [""], false) == [a];
    assert Scan([], [a, ""], false) == [a];
  }
}

=== FILE: listing.dfy ===
/** `List`: an S3-style hierarchical listing (`ListBucketResult`) rebuilt from one
    page of the backend's flat enumeration. Each item yields at most one `Contents`
    entry and at most one common prefix; a set of keys already grouped keeps the
    common prefixes distinct. */
module Listing {
  import opened Strings
  import opened Paths
  import opened Types
  import opened Directory

  const Standard := "STANDARD"

  /** The native id ends in a separator: the item is a directory marker. */
  predicate MarksDirectory(it: Item) {
    it.id != "" && it.id[|it.id| - 1] == '/'
  }

  /** A directory marker is exactly an item whose id has the suffix "/". */
  lemma MarkerEndsInSeparator(it: Item)
    ensures MarksDirectory(it) <==> HasSuffix(it.id, "/")
  {
    assert it.id != "" ==> it.id[|it.id| - 1..] == [it.id[|it.id| - 1]];
  }

  /** The item lies below the prefix: its id has more segments than the prefix. */
  predicate Deep(depth: nat, it: Item) {
    |SplitSlash(it.id)| > depth
  }

  /** An item lies below a prefix of `depth` segments exactly when its id holds at
      least `depth` separators. */
  lemma DeepCountsSeparators(depth: nat, it: Item)
    ensures Deep(depth, it) <==> Slashes(it.id) >= depth
  {
    SplitCount(it.id);
  }

  /** An item the loop can process: a non-empty id, and for an item directly at the
      prefix's depth, the directory hints `isDir` asserts. */
  predicate Listable(depth: nat, it: Item) {
    it.id != "" && (!Deep(depth, it) ==> DirHintsTyped(it))
  }

  /** The key the loop settles on before the marker adjustment: for a deeper item its
      id cut to as many segments as the prefix has, for any other item its name. For a
      prefix of at least one segment (every prefix `List` passes) the cut key is the id's leading segments: the id continues
      with a separator after it, and it splits into exactly those segments. */
  function BaseKey(depth: nat, it: Item): (k: string)
    ensures Deep(depth, it) ==> k == JoinSlash(SplitSlash(it.id)[..depth])
    ensures !Deep(depth, it) ==> k == it.name
    ensures depth >= 1 && Deep(depth, it) ==>
      HasPrefix(it.id, k + "/") && SplitSlash(k) == SplitSlash(it.id)[..depth]
  {
    if Deep(depth, it) then
      if depth >= 1 then CutKey(it.id, depth); JoinSlash(SplitSlash(it.id)[..depth])
      else JoinSlash(SplitSlash(it.id)[..depth])
    else it.name
  }

  /** Cutting a path to its first `depth` segments gives a key the path starts with,
      followed by a separator, and which splits into those segments. */
  lemma CutKey(id: string, depth: nat)
    requires 1 <= depth < |SplitSlash(id)|
    ensures var parts := SplitSlash(id);
      var k := JoinSlash(parts[..depth]);
      HasPrefix(id, k + "/") && SplitSlash(k) == parts[..depth]
  {
    var parts := SplitSlash(id);
    var k := JoinSlash(parts[..depth]);
    assert parts == parts[..depth] + parts[depth..];
    JoinAppend(parts[..depth], parts[depth..]);
    assert id == (k + "/") + JoinSlash(parts[depth..]);
    assert id[..|k + "/"|] == k + "/";
    SplitJoin(parts[..depth]);
  }

  /** Whether the item offers its key as a common prefix: a deeper item always, any
      other item only when it is a directory, which needs readable metadata. */
  predicate Groups(depth: nat, it: Item)
    requires Listable(depth, it)
    ensures Deep(depth, it) ==> Groups(depth, it)
    ensures Groups(depth, it) && !Deep(depth, it) ==> it.metadata.Some? && IsDir(it)
    ensures !Deep(depth, it) && it.metadata.Some? && IsDir(it) ==> Groups(depth, it)
  {
    Deep(depth, it) || IsDir(it)
  }

  /** The `Contents` entry an item yields, independent of every other item: the key
      (a directory marker's with a separator appended and its size forced to 0), the
      readable time, etag and size, and the `STANDARD` storage class; nothing when the
      key is empty. */
  function EntryOf(depth: nat, it: Item): (c: Option<Content>)
    ensures c.Some? ==> c.value.key != "" && c.value.storageClass == Standard
    ensures MarksDirectory(it) ==>
      c.Some? && c.value.key == BaseKey(depth, it) + "/" && c.value.size == 0
    ensures !MarksDirectory(it) ==>
      (c.Some? <==> BaseKey(depth, it) != "") && (c.Some? ==> c.value.key == BaseKey(depth, it))
    ensures c.Some? ==> c.value.lastModified == it.lastMod
    ensures c.Some? ==> c.value.etag == (if it.etag.Some? then it.etag.value else "")
    ensures c.Some? && !MarksDirectory(it) ==> c.value.size == (if it.size.Some? then it.size.value else 0)
  {
    var base := BaseKey(depth, it);
    var key := if MarksDirectory(it) then base + "/" else base;
    var size := if MarksDirectory(it) then 0 else if it.size.Some? then it.size.value else 0;
    var etag := if it.etag.Some? then it.etag.value else "";
    if key == "" then None else Some(Content(key, it.lastMod, etag, size, Standard))
  }

  /** What the loop takes from one item: the key it settles on, whether it offers
      that key as a common prefix, and its entry. */
  datatype View = View(key: string, groups: bool, entry: Option<Content>)

  function ViewOf(depth: nat, it: Item): View
    requires Listable(depth, it)
  {
    View(BaseKey(depth, it), Groups(depth, it), EntryOf(depth, it))
  }

  /** The views of a page's items, item by item. */
  function Views(depth: nat, items: seq<Item>): seq<View>
    requires forall j :: 0 <= j < |items| ==> Listable(depth, items[j])
  {
    seq(|items|, j requires 0 <= j < |items| => ViewOf(depth, items[j]))
  }

  /** The loop state: the entries and common prefixes so far, and the keys grouped. */
  datatype Acc = Acc(contents: seq<Content>, prefixes: seq<string>, seen: set<string>)

  /** One iteration of the loop: a key offered for grouping and not seen before is
      remembered and, unless empty, becomes a common prefix; the entry, if any, is
      appended. The loop only appends, by at most one entry and one prefix, and a
      prefix only for a key it had not seen. */
  function Step(acc: Acc, v: View): (r: Acc)
    ensures acc.seen <= r.seen
    ensures acc.contents <= r.contents && |r.contents| <= |acc.contents| + 1
    ensures acc.prefixes <= r.prefixes && |r.prefixes| <= |acc.prefixes| + 1
    ensures |r.prefixes| > |acc.prefixes| ==> v.key !in acc.seen && v.key in r.seen
  {
    var grouped := v.groups && v.key !in acc.seen;
    var seen := if grouped then acc.seen + {v.key} else acc.seen;
    var prefixes := if grouped && v.key != "" then acc.prefixes + [v.key + "/"] else acc.prefixes;
    var contents := if v.entry.Some? then acc.contents + [v.entry.value] else acc.contents;
    Acc(contents, prefixes, seen)
  }

  /** The keys grouped by the first `n` views. */
  ghost function GroupedKeys(vs: seq<View>, n: nat): set<string>
    requires n <= |vs|
  {
    set j | 0 <= j < n && vs[j].groups :: vs[j].key
  }

  /** The positions among the first `n` views that have an entry, in increasing
      order, so each at most once; `EntryIndicesComplete` shows none is missed. */
  function EntryIndices(vs: seq<View>, n: nat): (idx: seq<nat>)
    requires n <= |vs|
    ensures forall i :: 0 <= i < |idx| ==> idx[i] < n && vs[idx[i]].entry.Some?
    ensures forall i, i' :: 0 <= i < i' < |idx| ==> idx[i] < idx[i']
  {
    if n == 0 then []
    else if vs[n - 1].entry.Some? then EntryIndices(vs, n - 1) + [n - 1]
    else EntryIndices(vs, n - 1)
  }

  /** The entries of the first `n` views, one per view that has one, in order. */
  function Entries(vs: seq<View>, n: nat): (cs: seq<Content>)
    requires n <= |vs|
    ensures |cs| <= n
    ensures forall j :: 0 <= j < n && vs[j].entry.Some? ==> vs[j].entry.value in cs
    ensures forall c :: c in cs ==> exists j :: 0 <= j < n && vs[j].entry == Some(c)
  {
    if n == 0 then []
    else
      var e := vs[n - 1].entry;
      if e.Some? then Entries(vs, n - 1) + [e.value] else Entries(vs, n - 1)
  }

  /** Every prefix is a seen key with a separator appended. */
  ghost predicate PrefixesOf(prefixes: seq<string>, seen: set<string>) {
    forall i :: 0 <= i < |prefixes| ==>
      HasSuffix(prefixes[i], "/") && prefixes[i][..|prefixes[i]| - 1] in seen
  }

  /** No common prefix repeats. */
  predicate Distinct(prefixes: seq<string>) {
    forall i, i' :: 0 <= i < i' < |prefixes| ==> prefixes[i] != prefixes[i']
  }

  /** The loop state after the first `n` views. There is at most one common prefix
      per grouped key; each is a grouped key with a separator appended, none repeats
      and every non-empty grouped key appears; the entries are the views' own
      entries. */
  function CollectUpTo(vs: seq<View>, n: nat): (acc: Acc)
    requires n <= |vs|
    ensures Collected(vs, n, acc)
    ensures acc.seen == GroupedKeys(vs, n)
    ensures acc.contents == Entries(vs, n)
    ensures |acc.prefixes| <= |acc.seen| <= n
    ensures PrefixesOf(acc.prefixes, acc.seen)
    ensures Distinct(acc.prefixes)
    ensures forall k :: k in acc.seen && k != "" ==> k + "/" in acc.prefixes
    decreases n
  {
    if n == 0 then Acc([], [], {})
    else
      var acc := CollectUpTo(vs, n - 1);
      CollectStep(vs, n, acc);
      Step(acc, vs[n - 1])
  }

  /** The loop invariant after the first `n` views. */
  ghost predicate Collected(vs: seq<View>, n: nat, acc: Acc)
    requires n <= |vs|
  {
    && acc.seen == GroupedKeys(vs, n)
    && acc.contents == Entries(vs, n)
    && |acc.prefixes| <= |acc.seen| <= n
    && PrefixesOf(acc.prefixes, acc.seen)
    && Distinct(acc.prefixes)
    && forall k :: k in acc.seen && k != "" ==> k + "/" in acc.prefixes
  }

  /** One iteration keeps the loop invariant. */
  lemma CollectStep(vs: seq<View>, n: nat, acc: Acc)
    requires 0 < n <= |vs| && Collected(vs, n - 1, acc)
    ensures Collected(vs, n, Step(acc, vs[n - 1]))
  {
    var v := vs[n - 1];
    var r := Step(acc, v);
    GroupedKeysStep(vs, n);
    if v.groups && v.key !in acc.seen {
      AddPrefix(acc.prefixes, acc.seen, v.key);
      assert |acc.seen + {v.key}| == |acc.seen| + 1;
    }
  }

  /** The `n`-th view adds its key, if it groups, to those grouped before it. */
  lemma GroupedKeysStep(vs: seq<View>, n: nat)
    requires 0 < n <= |vs|
    ensures GroupedKeys(vs, n) == GroupedKeys(vs, n - 1) + (if vs[n - 1].groups then {vs[n - 1].key} else {})
  {
    var a, b := GroupedKeys(vs, n), GroupedKeys(vs, n - 1);
    forall k | k in a ensures k in b || (vs[n - 1].groups && k == vs[n - 1].key) {
      var j :| 0 <= j < n && vs[j].groups && vs[j].key == k;
      if j < n - 1 {
        assert k in b;
      }
    }
    if vs[n - 1].groups {
      assert vs[n - 1].key in a;
    }
  }

  /** Grouping a key not seen before keeps the prefixes those of seen keys and
      distinct. */
  lemma AddPrefix(prefixes: seq<string>, seen: set<string>, key: string)
    requires PrefixesOf(prefixes, seen) && Distinct(prefixes)
    requires key !in seen
    ensures PrefixesOf(prefixes, seen + {key})
    ensures key != "" ==>
      PrefixesOf(prefixes + [key + "/"], seen + {key}) && Distinct(prefixes + [key + "/"])
  {
    var k := key + "/";
    assert k[..|k| - 1] == key;
    forall i | 0 <= i < |prefixes| ensures prefixes[i] != k {
      var p := prefixes[i];
      assert p[..|p| - 1] in seen;
    }
  }

  /** The listing of one page: every item must be processable. There are no more
      entries or common prefixes than items, every entry has a key and the `STANDARD`
      class, and the common prefixes end in a separator and are distinct. */
  function Collect(depth: nat, items: seq<Item>): (acc: Acc)
    requires forall j :: 0 <= j < |items| ==> Listable(depth, items[j])
    ensures |acc.contents| <= |items| && |acc.prefixes| <= |items|
    ensures forall c :: c in acc.contents ==> c.key != "" && c.storageClass == Standard
    ensures forall i :: 0 <= i < |acc.prefixes| ==> HasSuffix(acc.prefixes[i], "/")
    ensures Distinct(acc.prefixes)
  {
    var vs := Views(depth, items);
    var acc := CollectUpTo(vs, |vs|);
    forall c | c in acc.contents ensures c.key != "" && c.storageClass == Standard {
      var j :| 0 <= j < |vs| && vs[j].entry == Some(c);
      assert vs[j] == ViewOf(depth, items[j]);
    }
    acc
  }

  /** Every item that groups under a non-empty key contributes that key, with a
      separator appended, as a common prefix. */
  lemma CollectPrefixesComplete(depth: nat, items: seq<Item>, j: nat)
    requires forall i :: 0 <= i < |items| ==> Listable(depth, items[i])
    requires j < |items| && Groups(depth, items[j]) && BaseKey(depth, items[j]) != ""
    ensures BaseKey(depth, items[j]) + "/" in Collect(depth, items).prefixes
  {
    var vs := Views(depth, items);
    assert vs[j] == ViewOf(depth, items[j]);
    assert vs[j].key in GroupedKeys(vs, |vs|);
  }

  /** Every common prefix comes from an item that groups: its key with a separator
      appended. */
  lemma CollectPrefixesSound(depth: nat, items: seq<Item>, p: string)
    requires forall i :: 0 <= i < |items| ==> Listable(depth, items[i])
    requires p in Collect(depth, items).prefixes
    ensures exists j :: 0 <= j < |items| && Groups(depth, items[j]) && p == BaseKey(depth, items[j]) + "/"
  {
    var vs := Views(depth, items);
    var acc := CollectUpTo(vs, |vs|);
    var i :| 0 <= i < |acc.prefixes| && acc.prefixes[i] == p;
    var k := p[..|p| - 1];
    assert HasSuffix(acc.prefixes[i], "/") && acc.prefixes[i][..|acc.prefixes[i]| - 1] in acc.seen;
    assert k in acc.seen;
    var j :| 0 <= j < |vs| && vs[j].groups && vs[j].key == k;
    assert vs[j] == ViewOf(depth, items[j]);
    SuffixSplit(p, "/");
  }

  /** Each item's entry, when it has one, is listed. */
  lemma CollectListsEntry(depth: nat, items: seq<Item>, j: nat)
    requires forall i :: 0 <= i < |items| ==> Listable(depth, items[i])
    requires j < |items| && EntryOf(depth, items[j]).Some?
    ensures EntryOf(depth, items[j]).value in Collect(depth, items).contents
  {
    var vs := Views(depth, items);
    assert vs[j] == ViewOf(depth, items[j]);
  }

  /** A directory marker is listed as an entry of size 0 whose key ends in a
      separator, whether or not it also grouped. */
  lemma CollectListsMarker(depth: nat, items: seq<Item>, j: nat)
    requires forall i :: 0 <= i < |items| ==> Listable(depth, items[i])
    requires j < |items| && MarksDirectory(items[j])
    ensures exists c :: c in Collect(depth, items).contents && c.key == BaseKey(depth, items[j]) + "/" && c.size == 0
  {
    CollectListsEntry(depth, items, j);
  }

  /** The items of a page can all be processed at the prefix's depth. */
  predicate PageListable(prefix: string, page: Outcome<Page>) {
    page.Ok? ==> forall j :: 0 <= j < |page.value.items| ==> Listable(|SplitSlash(prefix)|, page.value.items[j])
  }

  /** The effective prefix: the configured path prefix joined with the requested one.
      It is empty only when both are, has no doubled separator, and ends in one only
      when it is the root. */
  function EffectivePrefix(obj: FileObject, prefix: string): (p: string)
    ensures p == "" <==> obj.storage.pathPrefix == "" && prefix == ""
    ensures NoDoubleSlash(p)
    ensures HasSuffix(p, "/") ==> p == "/"
  {
    Join(obj.storage.pathPrefix, prefix)
  }

  /** Whether the local-with-metadata kind refuses the listing because the effective
      prefix names no item. A failing probe other than not-found does not stop it:
      a refused prefix is neither stored nor unreadable. */
  predicate PrefixMissing(obj: FileObject, c: Container, p: string)
    ensures PrefixMissing(obj, c, p) ==> obj.storage.kind == LocalMeta && p !in c.items && p !in c.unreadable
    ensures obj.storage.kind == LocalMeta && p != "" && p != "/" && p !in c.items && p !in c.unreadable ==>
      PrefixMissing(obj, c, p)
  {
    obj.storage.kind == LocalMeta && p != "" && p != "/" && c.Lookup(p).NotFound?
  }

  /** `List`: 503 without a backend; for local-meta, 404 with the logical key as the
      body when a non-root effective prefix names no item; 500 when the page cannot be
      read; otherwise 200 with an XML content type and the listing of the page under
      the bucket name, the effective prefix and the page's marker, never truncated. */
  function List(obj: FileObject, client: Client, maxKeys: int, prefix: string, marker: string,
                page: Outcome<Page>): (r: Response)
    requires PageListable(EffectivePrefix(obj, prefix), page)
    ensures client.Unavailable? ==> r == ErrorResponse(503)
    ensures client.Connected? && PrefixMissing(obj, client.container, EffectivePrefix(obj, prefix)) ==>
      r == TextResponse(404, obj.key)
    ensures client.Connected? && !PrefixMissing(obj, client.container, EffectivePrefix(obj, prefix)) ==>
      (r.status == 500 <==> !page.Ok?) && (r.status == 500 || r.status == 200)
    ensures r.status == 200 ==>
      && page.Ok?
      && r.contentType == Some(XmlType)
      && r.body.Xml?
      && var res := r.body.listing;
      && res.name == obj.bucket && res.prefix == EffectivePrefix(obj, prefix)
      && res.marker == page.value.nextMarker && res.maxKeys == maxKeys && !res.isTruncated
      && res == ListResult(obj.bucket, EffectivePrefix(obj, prefix), page.value.nextMarker, maxKeys, false,
                           Collect(|SplitSlash(EffectivePrefix(obj, prefix))|, page.value.items).contents,
                           Collect(|SplitSlash(EffectivePrefix(obj, prefix))|, page.value.items).prefixes)
  {
    match client
    case Unavailable => ErrorResponse(503)
    case Connected(c) =>
      var p := EffectivePrefix(obj, prefix);
      if PrefixMissing(obj, c, p) then TextResponse(404, obj.key)
      else
        match page
        case Ok(pg) =>
          var acc := Collect(|SplitSlash(p)|, pg.items);
          var res := ListResult(obj.bucket, p, pg.nextMarker, maxKeys, false, acc.contents, acc.prefixes);
          Response(200, map[], Some(XmlType), None, None, Xml(res))
        case _ => ErrorResponse(500)
  }

  /** A plain file with the given id, as the backend enumerates it. */
  function PlainFile(id: string, lastMod: Option<int>): Item {
    Item(id, id, Some(1), Some(""), lastMod, None, None)
  }

  /** The view every file `a/t` below the one-segment prefix `a` yields. */
  function ViewBelow(a: string, lastMod: Option<int>): View {
    View(a, true, Some(Content(a, lastMod, "", 1, Standard)))
  }

  /** Under a one-segment prefix a file `a/t` (`t` not ending in a separator) is
      deeper than the prefix, is no directory marker, and is cut to the key `a`: it
      groups under `a` and is listed under `a`. */
  lemma FileBelow(a: string, t: string, lastMod: Option<int>)
    requires a != "" && '/' !in a
    requires t != "" && t[|t| - 1] != '/'
    ensures Listable(1, PlainFile(a + "/" + t, lastMod))
    ensures ViewOf(1, PlainFile(a + "/" + t, lastMod)) == ViewBelow(a, lastMod)
  {
    var id := a + "/" + t;
    SplitCons(a, t);
    assert SplitSlash(id)[..1] == [a];
    assert JoinSlash([a]) == a;
    assert id[|id| - 1] == t[|t| - 1];
  }

  /** Views that are all the same grouping view with a non-empty key `k` and an
      entry keyed `k` list the single common prefix `k/` and one entry per view, all
      keyed `k`. */
  lemma OneKeyListing(vs: seq<View>, v: View)
    requires |vs| > 0 && forall j :: 0 <= j < |vs| ==> vs[j] == v
    requires v.groups && v.key != "" && v.entry.Some? && v.entry.value.key == v.key
    ensures var acc := CollectUpTo(vs, |vs|);
      && acc.prefixes == [v.key + "/"]
      && |acc.contents| == |vs|
      && (forall x :: x in acc.contents ==> x.key == v.key)
  {
    var acc := CollectUpTo(vs, |vs|);
    assert v.key in GroupedKeys(vs, |vs|) by {
      assert vs[0].groups && vs[0].key == v.key;
    }
    assert GroupedKeys(vs, |vs|) == {v.key};
    assert v.key + "/" in acc.prefixes;
    EntriesEveryView(vs, |vs|);
    forall x | x in acc.contents ensures x.key == v.key {
      var j :| 0 <= j < |vs| && vs[j].entry == Some(x);
    }
  }

  /** Every position among the first `n` views that has an entry is listed. */
  lemma {:induction false} EntryIndicesComplete(vs: seq<View>, n: nat)
    requires n <= |vs|
    ensures forall j :: 0 <= j < n && vs[j].entry.Some? ==> j in EntryIndices(vs, n)
  {
    if n > 0 {
      EntryIndicesComplete(vs, n - 1);
      var pi := EntryIndices(vs, n - 1);
      forall j | 0 <= j < n && vs[j].entry.Some? ensures j in EntryIndices(vs, n) {
        if j < n - 1 {
          assert j in pi;
        }
      }
    }
  }

  /** Multiplicity and order of the entries: the `i`-th entry is the entry of the
      `i`-th view that has one. */
  lemma {:induction false} EntriesInOrder(vs: seq<View>, n: nat)
    requires n <= |vs|
    ensures |Entries(vs, n)| == |EntryIndices(vs, n)|
    ensures forall i :: 0 <= i < |Entries(vs, n)| ==>
      Entries(vs, n)[i] == vs[EntryIndices(vs, n)[i]].entry.value
  {
    if n > 0 {
      EntriesInOrder(vs, n - 1);
      var prev, pi := Entries(vs, n - 1), EntryIndices(vs, n - 1);
      if vs[n - 1].entry.Some? {
        var cs, idx := prev + [vs[n - 1].entry.value], pi + [n - 1];
        assert Entries(vs, n) == cs && EntryIndices(vs, n) == idx;
        forall i | 0 <= i < |cs| ensures cs[i] == vs[idx[i]].entry.value {
          if i < |prev| {
            assert cs[i] == prev[i] && idx[i] == pi[i];
          }
        }
      } else {
        assert Entries(vs, n) == prev && EntryIndices(vs, n) == pi;
      }
    }
  }

  /** When every view has an entry, there is one entry per view. */
  lemma {:induction false} EntriesEveryView(vs: seq<View>, n: nat)
    requires n <= |vs|
    requires forall j :: 0 <= j < |vs| ==> vs[j].entry.Some?
    ensures |Entries(vs, n)| == n
  {
    if n > 0 {
      EntriesEveryView(vs, n - 1);
    }
  }

  /** Files `a/b`, `a/c` and `a/d/e` listed under the one-segment prefix `a`: every
      id is deeper than the prefix and is cut to that one segment, so the listing
      holds the single common prefix `a/` and three entries, all keyed `a` (not
      `a/b`, `a/c` and `a/d/`). */
  lemma ListingBelowOneSegment(a: string, b: string, c: string, d: string, e: string, lastMod: Option<int>)
    requires a != "" && b != "" && c != "" && e != ""
    requires '/' !in a && '/' !in b && '/' !in c && '/' !in d && '/' !in e
    ensures var items := [PlainFile(a + "/" + b, lastMod), PlainFile(a + "/" + c, lastMod),
                          PlainFile(a + "/" + (d + "/" + e), lastMod)];
      (forall j :: 0 <= j < |items| ==> Listable(1, items[j]))
      && var acc := Collect(1, items);
      && acc.prefixes == [a + "/"]
      && |acc.contents| == 3
      && (forall x :: x in acc.contents ==> x.key == a)
  {
    var items := [PlainFile(a + "/" + b, lastMod), PlainFile(a + "/" + c, lastMod),
                  PlainFile(a + "/" + (d + "/" + e), lastMod)];
    var v := ViewBelow(a, lastMod);
    ViewsBelowOneSegment(a, b, c, d + "/" + e, lastMod);
    OneKeyListing([v, v, v], v);
  }

  /** The views of three files below the one-segment prefix `a` are all the grouping
      view of key `a`. */
  lemma ViewsBelowOneSegment(a: string, b: string, c: string, de: string, lastMod: Option<int>)
    requires a != "" && '/' !in a
    requires b != "" && b[|b| - 1] != '/' && c != "" && c[|c| - 1] != '/' && de != "" && de[|de| - 1] != '/'
    ensures var items := [PlainFile(a + "/" + b, lastMod), PlainFile(a + "/" + c, lastMod),
                          PlainFile(a + "/" + de, lastMod)];
      && (forall j :: 0 <= j < |items| ==> Listable(1, items[j]))
      && Views(1, items) == [ViewBelow(a, lastMod), ViewBelow(a, lastMod), ViewBelow(a, lastMod)]
  {
    var items := [PlainFile(a + "/" + b, lastMod), PlainFile(a + "/" + c, lastMod), PlainFile(a + "/" + de, lastMod)];
    FileBelow(a, b, lastMod);
    FileBelow(a, c, lastMod);
    FileBelow(a, de, lastMod);
    var vs := Views(1, items);
    assert vs[0] == ViewOf(1, items[0]) && vs[1] == ViewOf(1, items[1]) && vs[2] == ViewOf(1, items[2]);
  }
}

=== FILE: metadata.dfy ===
/** Metadata translation in both directions: request headers into the stored metadata
    map (`prepareMetadata`) and stored metadata into response headers
    (`parseMetadata`). Both loop over a Go map; the model visits the keys in the
    order the map carries, and a later assignment to the same name wins. */
module MetaHeaders {
  import opened Strings
  import opened Types
  import opened Assignments

  /** The prefix `prepareMetadata` tests for and `parseMetadata` joins with "-". */
  const AmzMeta := "x-amz-meta"
  /** The prefix the s3 branch deletes from a stored header name. */
  const AmzMetaDash := "x-amz-meta-"

  /** How the two prefixes and the `x-` family nest. */
  lemma MetaPrefixes()
    ensures HasPrefix(AmzMetaDash, AmzMeta) && HasPrefix(AmzMeta, "x-")
  {
  }

  /** A name in the custom-metadata family starts "x-", so it is neither content-type
      nor etag. */
  lemma MetaFamily(s: string)
    ensures HasPrefix(s, AmzMetaDash) ==> HasPrefix(s, AmzMeta)
    ensures HasPrefix(s, AmzMeta) ==> HasPrefix(s, "x-") && s != "content-type" && s != "etag"
  {
    MetaPrefixes();
    if HasPrefix(s, AmzMetaDash) { PrefixTransitive(s, AmzMetaDash, AmzMeta); }
    if HasPrefix(s, AmzMeta) { PrefixTransitive(s, AmzMeta, "x-"); }
    PrefixFirstChar(s, AmzMeta);
  }

  // ---------------------------------------------------------------- inbound

  /** Whether `prepareMetadata` keeps request header `k`: the custom-metadata family
      and `content-type` for every kind, and `etag` too except for s3. */
  predicate Kept(kind: Kind, k: string)
    ensures HasPrefix(ToLower(k), AmzMetaDash) ==> Kept(kind, k)
    ensures Kept(kind, k) ==>
      HasPrefix(ToLower(k), "x-") || ToLower(k) == "content-type" || ToLower(k) == "etag"
    ensures ToLower(k) == "content-type" ==> Kept(kind, k)
    ensures ToLower(k) == "etag" ==> (Kept(kind, k) <==> kind != S3)
  {
    var lk := ToLower(k);
    MetaFamily(lk);
    HasPrefix(lk, AmzMeta) || lk == "content-type" || (kind != S3 && lk == "etag")
  }

  /** The metadata name a kept header is stored under: the lower-cased name, from
      which the s3 branch deletes the first "x-amz-meta-". */
  function StoredName(kind: Kind, k: string): (s: string)
    ensures IsLower(s)
    ensures kind != S3 ==> s == ToLower(k)
    ensures kind == S3 && HasPrefix(ToLower(k), AmzMetaDash) ==> s == ToLower(k)[|AmzMetaDash|..]
    ensures kind == S3 ==> s == ToLower(k) || |s| + |AmzMetaDash| == |ToLower(k)|
    ensures kind == S3 ==> forall i :: FirstOccurrence(ToLower(k), AmzMetaDash, i) ==>
      s == ToLower(k)[..i] + ToLower(k)[i + |AmzMetaDash|..]
    ensures kind == S3 && (forall i :: !OccursAt(ToLower(k), AmzMetaDash, i)) ==> s == ToLower(k)
  {
    if kind == S3 then
      DeleteFirstKeepsLower(ToLower(k), AmzMetaDash);
      DeleteFirst(ToLower(k), AmzMetaDash)
    else ToLower(k)
  }

  /** Every kept header has a first value (`v[0]` would panic otherwise). */
  predicate HasFirstValues(kind: Kind, h: Header) {
    forall k :: k in h.entries && Kept(kind, k) ==> |h.entries[k]| > 0
  }

  /** No two kept headers are stored under the same name. */
  predicate NoCollision(kind: Kind, h: Header) {
    forall k1, k2 ::
      (k1 in h.entries && k2 in h.entries && Kept(kind, k1) && Kept(kind, k2)
       && StoredName(kind, k1) == StoredName(kind, k2)) ==> k1 == k2
  }

  /** The name a header is stored under, if it is kept at all. */
  function InboundName(kind: Kind, k: string): Option<string> {
    if Kept(kind, k) then Some(StoredName(kind, k)) else None
  }

  /** The value stored for header `k`: its first value, as a string. */
  function FirstValue(h: Header, k: string): string {
    if k in h.entries && |h.entries[k]| > 0 then h.entries[k][0] else ""
  }

  /** `prepareMetadata`: every kept header is stored, under a lower-case name, with
      its first value as a string, and every stored name comes from a kept header. */
  function PrepareMetadata(kind: Kind, h: Header): (m: Metadata)
    requires HasFirstValues(kind, h)
    ensures forall s :: s in m.entries ==> IsLower(s) && m.entries[s].Str?
    ensures forall k :: k in h.entries && Kept(kind, k) ==> StoredName(kind, k) in m.entries
    ensures forall s :: s in m.entries ==>
      exists k :: k in h.entries && Kept(kind, k) && StoredName(kind, k) == s && m.entries[s] == Str(h.entries[k][0])
  {
    var rename := k => InboundName(kind, k);
    var value := k => Str(FirstValue(h, k));
    var m := AssignUpTo(h.order, rename, value, |h.order|);
    forall k | k in h.entries && Kept(kind, k) ensures StoredName(kind, k) in m.entries {
      var j :| 0 <= j < |h.order| && h.order[j] == k;
      assert rename(h.order[j]).Some?;
    }
    forall s | s in m.entries
      ensures IsLower(s) && m.entries[s].Str?
      ensures exists k :: k in h.entries && Kept(kind, k) && StoredName(kind, k) == s && m.entries[s] == Str(h.entries[k][0])
    {
      var j :| LastAssigned(h.order, rename, |h.order|, s, j) && m.entries[s] == value(h.order[j]);
      var k := h.order[j];
      assert k in h.entries && Kept(kind, k) && StoredName(kind, k) == s;
    }
    m
  }

  /** The stored map has no more names than the header map has names. */
  lemma PrepareNoLarger(kind: Kind, h: Header)
    requires HasFirstValues(kind, h)
    ensures |PrepareMetadata(kind, h).entries| <= |h.entries|
  {
    var m := PrepareMetadata(kind, h).entries;
    var image := set k | k in h.entries.Keys :: StoredName(kind, k);
    assert m.Keys <= image by {
      forall s | s in m ensures s in image {
        var k :| k in h.entries && Kept(kind, k) && StoredName(kind, k) == s;
      }
    }
    ImageNoLarger(kind, h.entries.Keys);
    assert |m.Keys| <= |image| by { SubsetCard(m.Keys, image); }
  }

  lemma {:induction false} SubsetCard(a: set<string>, b: set<string>)
    requires a <= b
    ensures |a| <= |b|
  {
    assert b == a + (b - a);
  }

  /** A set of header names has no more stored names than names. */
  lemma {:induction false} ImageNoLarger(kind: Kind, a: set<string>)
    ensures |set k | k in a :: StoredName(kind, k)| <= |a|
  {
    if a != {} {
      var x :| x in a;
      var rest := a - {x};
      ImageNoLarger(kind, rest);
      assert (set k | k in a :: StoredName(kind, k)) == (set k | k in rest :: StoredName(kind, k)) + {StoredName(kind, x)};
    }
  }

  /** Without collisions the stored value under a header's name is that header's
      first value, whatever order the headers were visited in. */
  lemma PrepareStoresFirstValue(kind: Kind, h: Header, k: string)
    requires HasFirstValues(kind, h) && NoCollision(kind, h)
    requires k in h.entries && Kept(kind, k)
    ensures PrepareMetadata(kind, h).entries[StoredName(kind, k)] == Str(h.entries[k][0])
  {
  }

  /** Without collisions the map iteration order does not matter. */
  lemma PrepareOrderIrrelevant(kind: Kind, h1: Header, h2: Header)
    requires h1.entries == h2.entries
    requires HasFirstValues(kind, h1) && NoCollision(kind, h1)
    ensures PrepareMetadata(kind, h1).entries == PrepareMetadata(kind, h2).entries
  {
    var m1, m2 := PrepareMetadata(kind, h1).entries, PrepareMetadata(kind, h2).entries;
    forall s | s in m1 ensures s in m2 && m2[s] == m1[s] {
      var k :| k in h1.entries && Kept(kind, k) && StoredName(kind, k) == s && m1[s] == Str(h1.entries[k][0]);
      PrepareStoresFirstValue(kind, h2, k);
    }
    forall s | s in m2 ensures s in m1 {
      var k :| k in h2.entries && Kept(kind, k) && StoredName(kind, k) == s && m2[s] == Str(h2.entries[k][0]);
      assert k in h1.entries;
    }
    SameMaps(m1, m2);
  }

  lemma SameMaps<V>(m1: map<string, V>, m2: map<string, V>)
    requires forall s :: s in m1 ==> s in m2 && m2[s] == m1[s]
    requires forall s :: s in m2 ==> s in m1
    ensures m1 == m2
  {
  }

  /** For s3 every stored name comes from a header of the custom-metadata family or
      `content-type`, with the first "x-amz-meta-" deleted. */
  lemma S3StoredNames(h: Header)
    requires HasFirstValues(S3, h)
    ensures var m := PrepareMetadata(S3, h).entries;
      forall s :: s in m ==>
        exists k :: (k in h.entries && (HasPrefix(ToLower(k), AmzMeta) || ToLower(k) == "content-type")
                     && s == DeleteFirst(ToLower(k), AmzMetaDash))
  {
    var m := PrepareMetadata(S3, h).entries;
    forall s | s in m
      ensures exists k :: (k in h.entries && (HasPrefix(ToLower(k), AmzMeta) || ToLower(k) == "content-type")
                           && s == DeleteFirst(ToLower(k), AmzMetaDash))
    {
      var k :| k in h.entries && Kept(S3, k) && StoredName(S3, k) == s && m[s] == Str(h.entries[k][0]);
    }
  }

  /** For s3 a header starting "x-amz-meta-" is stored under the rest of its name. */
  lemma S3CustomStored(h: Header, k: string)
    requires HasFirstValues(S3, h)
    requires k in h.entries && HasPrefix(ToLower(k), AmzMetaDash)
    ensures ToLower(k)[|AmzMetaDash|..] in PrepareMetadata(S3, h).entries
  {
    MetaPrefixes();
    PrefixTransitive(ToLower(k), AmzMetaDash, AmzMeta);
  }

  /** A header named `content-type` in any capitalisation is kept by every kind and
      stored as `content-type`. */
  lemma ContentTypeName(kind: Kind, k: string)
    requires ToLower(k) == "content-type"
    ensures Kept(kind, k) && StoredName(kind, k) == "content-type"
  {
    ContentTypeUntouched();
  }

  /** "content-type" holds no "x-amz-meta-" to delete. */
  lemma ContentTypeUntouched()
    ensures DeleteFirst("content-type", AmzMetaDash) == "content-type"
  {
    var lk := "content-type";
    assert forall i :: 0 <= i < |lk| ==> lk[i] != 'x';
  }

  /** The canonical `Content-Type` lower-cases to `content-type`. */
  lemma ContentTypeLower()
    ensures ToLower("Content-Type") == "content-type"
  {
    ToLowerPointwise("Content-Type", "content-type");
  }

  /** An `etag` header is kept by every kind except s3. */
  lemma EtagKeptExceptS3(kind: Kind, k: string)
    requires ToLower(k) == "etag"
    ensures Kept(kind, k) <==> kind != S3
  {
    assert !HasPrefix("etag", AmzMeta);
  }

  /** For the other kinds names are stored lower-cased and otherwise unchanged, and
      `etag` is stored as well. */
  lemma OtherKindsStoredNames(kind: Kind, h: Header)
    requires kind != S3 && HasFirstValues(kind, h)
    ensures var m := PrepareMetadata(kind, h).entries;
      && (forall s :: s in m ==> HasPrefix(s, AmzMeta) || s == "content-type" || s == "etag")
      && (forall k :: k in h.entries && ToLower(k) == "etag" ==> "etag" in m)
  {
  }

  // --------------------------------------------------------------- outbound

  /** Lower-case metadata names every kind copies into the response. */
  predicate Forwarded(lk: string) {
    lk == "cache-control" || HasPrefix(lk, "x-")
  }

  /** The two stored names the s3 branch of `parseMetadata` emits unprefixed. */
  predicate Unprefixed(k: string) {
    k == "cache-control" || k == "content-type"
  }

  /** The response header the s3 branch of `parseMetadata` sets for stored name `k`. */
  function S3Header(k: string): (h: string)
    ensures Unprefixed(k) ==> h == k
    ensures !Unprefixed(k) ==> HasPrefix(h, AmzMetaDash) && h[|AmzMetaDash|..] == k
  {
    if Unprefixed(k) then k else AmzMeta + "-" + k
  }

  /** Distinct stored names get distinct s3 headers. */
  lemma S3HeaderInjective(k1: string, k2: string)
    requires S3Header(k1) == S3Header(k2)
    ensures k1 == k2
  {
    assert "cache-control"[0] != 'x' && "content-type"[0] != 'x' && AmzMetaDash[0] == 'x';
  }

  /** The values `parseMetadata` asserts to be strings are strings: the forwarded
      ones for every kind, all of them for s3. */
  predicate Readable(kind: Kind, m: Metadata) {
    forall k :: k in m.entries && (kind == S3 || Forwarded(ToLower(k))) ==> m.entries[k].Str?
  }

  /** The header the first loop sets for metadata name `k`, if any. */
  function ForwardName(k: string): Option<string> {
    if Forwarded(ToLower(k)) then Some(ToLower(k)) else None
  }

  /** The header the s3 loop sets for metadata name `k`. */
  function S3Name(k: string): Option<string> {
    Some(S3Header(k))
  }

  /** The string held under metadata name `k`. */
  function TextOf(m: Metadata, k: string): string {
    if k in m.entries && m.entries[k].Str? then m.entries[k].s else ""
  }

  /** `parseMetadata`. Every kind copies `cache-control` and each `x-` name through,
      lower-cased, with the value of a metadata entry of that name; for s3 every
      stored entry is re-emitted as well, `cache-control` and `content-type` as they
      are and every other name behind "x-amz-meta-", and these later writes win.
      No other header is produced. */
  function ParseMetadata(kind: Kind, m: Metadata): (hs: map<string, string>)
    requires Readable(kind, m)
    ensures forall h :: h in hs ==> Forwarded(h) || (kind == S3 && h == "content-type")
    ensures forall k :: k in m.entries && Forwarded(ToLower(k)) ==> ToLower(k) in hs
    ensures forall h :: h in hs ==>
      exists k :: k in m.entries && (h == ToLower(k) || (kind == S3 && h == S3Header(k))) && hs[h] == m.entries[k].s
    ensures kind == S3 ==> forall k :: k in m.entries ==> S3Header(k) in hs && hs[S3Header(k)] == m.entries[k].s
  {
    var first := ForwardedHeaders(m);
    if kind == S3 then
      var second := S3Headers(m);
      var hs := first + second;
      forall h | h in hs
        ensures Forwarded(h) || h == "content-type"
        ensures exists k :: k in m.entries && (h == ToLower(k) || h == S3Header(k)) && hs[h] == m.entries[k].s
      {
        if h in second {
          var k :| k in m.entries && h == S3Header(k) && second[h] == m.entries[k].s;
        } else {
          var k :| k in m.entries && h == ToLower(k) && first[h] == m.entries[k].s;
        }
      }
      hs
    else first
  }

  /** The headers the s3 loop of `parseMetadata` sets: one per stored name, holding
      that name's value. */
  function S3Headers(m: Metadata): (hs: map<string, string>)
    requires forall k :: k in m.entries ==> m.entries[k].Str?
    ensures forall h :: h in hs ==> Forwarded(h) || h == "content-type"
    ensures forall h :: h in hs ==> exists k :: k in m.entries && h == S3Header(k) && hs[h] == m.entries[k].s
    ensures forall k :: k in m.entries ==> S3Header(k) in hs && hs[S3Header(k)] == m.entries[k].s
  {
    var value := k => TextOf(m, k);
    var hs := AssignUpTo(m.order, S3Name, value, |m.order|).entries;
    S3HeadersComplete(m);
    forall h | h in hs
      ensures Forwarded(h) || h == "content-type"
      ensures exists k :: k in m.entries && h == S3Header(k) && hs[h] == m.entries[k].s
    {
      var j :| LastAssigned(m.order, S3Name, |m.order|, h, j) && hs[h] == value(m.order[j]);
      S3HeaderShape(m.order[j]);
      assert m.order[j] in m.entries;
    }
    hs
  }

  /** The headers the first loop of `parseMetadata` sets. */
  function ForwardedHeaders(m: Metadata): (hs: map<string, string>)
    requires forall k :: k in m.entries && Forwarded(ToLower(k)) ==> m.entries[k].Str?
    ensures forall h :: h in hs ==> Forwarded(h)
    ensures forall k :: k in m.entries && Forwarded(ToLower(k)) ==> ToLower(k) in hs
    ensures forall h :: h in hs ==> exists k :: k in m.entries && h == ToLower(k) && hs[h] == m.entries[k].s
  {
    var value := k => TextOf(m, k);
    var hs := AssignUpTo(m.order, ForwardName, value, |m.order|).entries;
    forall k | k in m.entries && Forwarded(ToLower(k)) ensures ToLower(k) in hs {
      var j :| 0 <= j < |m.order| && m.order[j] == k;
      assert ForwardName(m.order[j]).Some?;
    }
    forall h | h in hs ensures Forwarded(h) && exists k :: k in m.entries && h == ToLower(k) && hs[h] == m.entries[k].s {
      var j :| LastAssigned(m.order, ForwardName, |m.order|, h, j) && hs[h] == value(m.order[j]);
      assert m.order[j] in m.entries;
    }
    hs
  }

  /** An s3 header name is `cache-control`, `content-type` or starts "x-". */
  lemma S3HeaderShape(k: string)
    ensures Forwarded(S3Header(k)) || S3Header(k) == "content-type"
  {
    if !Unprefixed(k) {
      MetaPrefixes();
      PrefixTransitive(S3Header(k), AmzMetaDash, AmzMeta);
      PrefixTransitive(S3Header(k), AmzMeta, "x-");
    }
  }

  /** In s3 every metadata name's header holds that name's value: the headers of
      distinct names are distinct. */
  lemma S3HeadersComplete(m: Metadata)
    requires forall k :: k in m.entries ==> m.entries[k].Str?
    ensures var hs := AssignUpTo(m.order, S3Name, k => TextOf(m, k), |m.order|).entries;
      forall k :: k in m.entries ==> S3Header(k) in hs && hs[S3Header(k)] == m.entries[k].s
  {
    forall i, i' | 0 <= i < i' < |m.order| ensures S3Name(m.order[i]) != S3Name(m.order[i']) {
      if S3Header(m.order[i]) == S3Header(m.order[i']) {
        S3HeaderInjective(m.order[i], m.order[i']);
      }
    }
    forall k | k in m.entries
      ensures var hs := AssignUpTo(m.order, S3Name, k => TextOf(m, k), |m.order|).entries;
        S3Header(k) in hs && hs[S3Header(k)] == m.entries[k].s
    {
      var j :| 0 <= j < |m.order| && m.order[j] == k;
      AssignInjective(m.order, S3Name, k => TextOf(m, k), j);
    }
  }

  /** With no two metadata names equal up to case, a forwarded name keeps its own
      value: the copy is verbatim. */
  lemma ForwardedVerbatim(kind: Kind, m: Metadata, k: string)
    requires Readable(kind, m) && kind != S3
    requires forall k1, k2 :: k1 in m.entries && k2 in m.entries && ToLower(k1) == ToLower(k2) ==> k1 == k2
    requires k in m.entries && Forwarded(ToLower(k))
    ensures ParseMetadata(kind, m)[ToLower(k)] == m.entries[k].s
  {
  }

  /** In s3 a stored name other than `cache-control` and `content-type` comes back
      behind "x-amz-meta-" with its value, whatever else is stored. */
  lemma S3ParsePrefixed(m: Metadata, n: string)
    requires Readable(S3, m) && n in m.entries && !Unprefixed(n)
    ensures AmzMetaDash + n in ParseMetadata(S3, m)
    ensures ParseMetadata(S3, m)[AmzMetaDash + n] == m.entries[n].s
  {
    assert S3Header(n) == AmzMetaDash + n;
  }

  /** In s3 a header starting "x-amz-meta-" is stored under the rest of its
      lower-cased name. */
  lemma S3StoredUnderSuffix(h: Header, k: string)
    requires HasFirstValues(S3, h) && NoCollision(S3, h)
    requires k in h.entries && HasPrefix(ToLower(k), AmzMetaDash)
    ensures var n := ToLower(k)[|AmzMetaDash|..];
      var stored := PrepareMetadata(S3, h).entries;
      n in stored && stored[n] == Str(FirstValue(h, k))
  {
    var lk := ToLower(k);
    MetaPrefixes();
    PrefixTransitive(lk, AmzMetaDash, AmzMeta);
    assert StoredName(S3, k) == lk[|AmzMetaDash|..];
    PrepareStoresFirstValue(S3, h, k);
  }

  /** Round trip for s3: a custom-metadata header stored through `prepareMetadata`
      comes back from `parseMetadata` under its lower-cased name with its first
      value, unless what follows "x-amz-meta-" is one of the two unprefixed names. */
  lemma S3RoundTrip(h: Header, k: string)
    requires HasFirstValues(S3, h) && NoCollision(S3, h)
    requires k in h.entries && HasPrefix(ToLower(k), AmzMetaDash)
    requires !Unprefixed(ToLower(k)[|AmzMetaDash|..])
    ensures var stored := PrepareMetadata(S3, h);
      Readable(S3, stored) && ToLower(k) in ParseMetadata(S3, stored)
      && ParseMetadata(S3, stored)[ToLower(k)] == FirstValue(h, k)
  {
    var lk := ToLower(k);
    var n := lk[|AmzMetaDash|..];
    var stored := PrepareMetadata(S3, h);
    S3StoredUnderSuffix(h, k);
    assert Readable(S3, stored);
    S3ParsePrefixed(stored, n);
    PrefixSplit(lk, AmzMetaDash);
  }

  /** Round trip for s3 of the content type: it comes back unprefixed. */
  lemma S3ContentTypeRoundTrip(h: Header, k: string)
    requires HasFirstValues(S3, h) && NoCollision(S3, h)
    requires k in h.entries && ToLower(k) == "content-type"
    ensures var stored := PrepareMetadata(S3, h);
      Readable(S3, stored) && "content-type" in ParseMetadata(S3, stored)
      && ParseMetadata(S3, stored)["content-type"] == FirstValue(h, k)
  {
    assert 'x' !in "content-type";
    assert StoredName(S3, k) == "content-type";
    PrepareStoresFirstValue(S3, h, k);
  }

  /** Outside s3 a lower-case stored name that is forwarded comes back under itself
      with its value. */
  lemma ForwardedStoredName(kind: Kind, m: Metadata, n: string)
    requires kind != S3 && Readable(kind, m)
    requires forall s :: s in m.entries ==> IsLower(s)
    requires n in m.entries && Forwarded(n)
    ensures n in ParseMetadata(kind, m) && ParseMetadata(kind, m)[n] == TextOf(m, n)
  {
    ToLowerOfLower(n);
    var hs := ParseMetadata(kind, m);
    var k' :| k' in m.entries && n == ToLower(k') && hs[n] == m.entries[k'].s;
    ToLowerOfLower(k');
  }

  /** Round trip for the other kinds: a custom-metadata header is stored under its
      lower-cased name and copied back under it. */
  lemma OtherKindsRoundTrip(kind: Kind, h: Header, k: string)
    requires kind != S3 && HasFirstValues(kind, h) && NoCollision(kind, h)
    requires k in h.entries && HasPrefix(ToLower(k), AmzMeta)
    ensures var stored := PrepareMetadata(kind, h);
      Readable(kind, stored) && ToLower(k) in ParseMetadata(kind, stored)
      && ParseMetadata(kind, stored)[ToLower(k)] == FirstValue(h, k)
  {
    var lk := ToLower(k);
    var stored := PrepareMetadata(kind, h);
    PrepareStoresFirstValue(kind, h, k);
    assert StoredName(kind, k) == lk;
    assert lk in stored.entries && TextOf(stored, lk) == FirstValue(h, k);
    MetaPrefixes();
    PrefixTransitive(lk, AmzMeta, "x-");
    ForwardedStoredName(kind, stored, lk);
  }
}

=== FILE: objects.dfy ===
/** The object operations `Get`, `Head`, `Set` and `Delete`, and the response
    assembly they share (`prepareResponse`), against an abstract backend container.
    The backend connection is resolved by the caller and handed in as a `Client`;
    the extension-to-media-type table is the parameter `mime`. */
module Objects {
  import opened Strings
  import opened Paths
  import opened Types
  import opened Keys
  import opened Directory
  import opened MetaHeaders

  // ------------------------------------------------------------ prepareResponse

  /** The content-type hints `prepareResponse` asserts to be strings are strings: the
      exact-case `Content-Type`, and without it the lower-case `content-type`. */
  predicate ContentTypeTyped(m: map<string, MetaValue>) {
    && ("Content-Type" in m ==> m["Content-Type"].Str?)
    && ("Content-Type" !in m && "content-type" in m ==> m["content-type"].Str?)
  }

  /** No content-type hint and no media type for the request path's extension: the
      case in which `prepareResponse` asks `isDir`. */
  predicate Untyped(obj: FileObject, m: map<string, MetaValue>, mime: string -> string) {
    "Content-Type" !in m && "content-type" !in m && mime(Ext(obj.uriPath)) == ""
  }

  /** `prepareResponse` runs without a failed type assertion: the metadata it copies
      is readable, and once the etag and modification time are read, the content-type
      hints are strings and, when it comes to asking `isDir`, the directory hints too. */
  predicate ResponseReady(obj: FileObject, it: Item, mime: string -> string) {
    it.metadata.Some? ==>
      var m := it.metadata.value;
      && Readable(obj.storage.kind, m)
      && (it.etag.Some? && it.lastMod.Some? ==>
            ContentTypeTyped(m.entries) && (Untyped(obj, m.entries, mime) ==> DirHintsTyped(it)))
  }

  /** The content type `prepareResponse` sets: a stored `Content-Type`, else a stored
      `content-type`, else the media type of the request path's extension, else
      `application/directory` for a directory and nothing for anything else. */
  function ContentTypeOf(obj: FileObject, it: Item, mime: string -> string): (ct: Option<string>)
    requires it.metadata.Some? && ContentTypeTyped(it.metadata.value.entries)
    requires Untyped(obj, it.metadata.value.entries, mime) ==> DirHintsTyped(it)
    ensures var m := it.metadata.value.entries;
      "Content-Type" in m ==> ct == Some(m["Content-Type"].s)
    ensures var m := it.metadata.value.entries;
      "Content-Type" !in m && "content-type" in m ==> ct == Some(m["content-type"].s)
    ensures ct.None? ==> Untyped(obj, it.metadata.value.entries, mime) && !IsDir(it)
    ensures ct == Some(DirectoryType) && Untyped(obj, it.metadata.value.entries, mime) ==> IsDir(it)
    ensures ct.Some? && ct.value == "" ==>
      var m := it.metadata.value.entries;
      ("Content-Type" in m && m["Content-Type"].s == "")
      || ("Content-Type" !in m && "content-type" in m && m["content-type"].s == "")
  {
    var m := it.metadata.value.entries;
    if "Content-Type" in m then Some(m["Content-Type"].s)
    else if "content-type" in m then Some(m["content-type"].s)
    else
      var ct := mime(Ext(obj.uriPath));
      if ct != "" then Some(ct)
      else if IsDir(it) then Some(DirectoryType)
      else None
  }

  /** A stored content type decides, whatever the request path and the item's size:
      the exact-case `Content-Type` when there is one, else `content-type`. */
  lemma StoredContentTypeWins(obj: FileObject, it: Item, mime: string -> string, uri: string, size: Option<int>)
    requires it.metadata.Some? && ContentTypeTyped(it.metadata.value.entries)
    requires "Content-Type" in it.metadata.value.entries || "content-type" in it.metadata.value.entries
    ensures var m := it.metadata.value.entries;
      var stored := if "Content-Type" in m then m["Content-Type"].s else m["content-type"].s;
      var it' := it.(size := size);
      var obj' := obj.(uriPath := uri);
      ContentTypeOf(obj', it', mime) == ContentTypeOf(obj, it, mime) == Some(stored)
  {
  }

  /** Without a stored content type, a known extension decides over the directory
      check, and an unknown one leaves it to `isDir`. */
  lemma ExtensionBeforeDirectory(obj: FileObject, it: Item, mime: string -> string)
    requires it.metadata.Some? && ContentTypeTyped(it.metadata.value.entries)
    requires "Content-Type" !in it.metadata.value.entries && "content-type" !in it.metadata.value.entries
    requires Untyped(obj, it.metadata.value.entries, mime) ==> DirHintsTyped(it)
    ensures mime(Ext(obj.uriPath)) != "" ==> ContentTypeOf(obj, it, mime) == Some(mime(Ext(obj.uriPath)))
    ensures mime(Ext(obj.uriPath)) == "" ==>
      (ContentTypeOf(obj, it, mime) == Some(DirectoryType) <==> IsDir(it))
  {
  }

  /** `prepareResponse`: a 500 when the metadata, the etag or the modification time
      cannot be read; otherwise a 200 that carries the given body, the copied metadata
      headers, an `ETag` header exactly when the etag is non-empty, the modification
      time, the size when it can be read, and the resolved content type. */
  function PrepareResponse(obj: FileObject, it: Item, body: Body, mime: string -> string): (r: Response)
    requires ResponseReady(obj, it, mime)
    ensures r.status == 200 || r == ErrorResponse(500)
    ensures r.status == 200 <==> it.metadata.Some? && it.etag.Some? && it.lastMod.Some?
    ensures r.status == 200 ==>
      && r.body == body
      && r.lastModified == it.lastMod
      && r.contentLength == it.size
      && ("ETag" in r.headers <==> it.etag.value != "")
      && ("ETag" in r.headers ==> r.headers["ETag"] == it.etag.value)
      && r.contentType == ContentTypeOf(obj, it, mime)
    ensures r.status == 200 ==>
      var copied := ParseMetadata(obj.storage.kind, it.metadata.value);
      forall h :: h in r.headers && h != "ETag" ==> h in copied && r.headers[h] == copied[h]
    ensures r.status == 200 ==>
      var copied := ParseMetadata(obj.storage.kind, it.metadata.value);
      forall h :: h in copied ==> h in r.headers && r.headers[h] == copied[h]
  {
    match it.metadata
    case None => ErrorResponse(500)
    case Some(md) =>
      var copied := ParseMetadata(obj.storage.kind, md);
      if it.etag.None? || it.lastMod.None? then ErrorResponse(500)
      else
        EtagNotCopied(obj.storage.kind, md);
        Response(200, WithEtag(copied, it.etag.value), ContentTypeOf(obj, it, mime), it.size, it.lastMod, body)
  }

  /** The copied headers with `ETag` set when the etag is non-empty. */
  function WithEtag(copied: map<string, string>, etag: string): (hs: map<string, string>)
    requires "ETag" !in copied
    ensures "ETag" in hs <==> etag != ""
    ensures "ETag" in hs ==> hs["ETag"] == etag
    ensures forall h :: h in hs && h != "ETag" ==> h in copied && hs[h] == copied[h]
    ensures forall h :: h in copied ==> h in hs && hs[h] == copied[h]
  {
    if etag != "" then copied["ETag" := etag] else copied
  }

  /** No copied metadata header is named `ETag`. */
  lemma EtagNotCopied(kind: Kind, m: Metadata)
    requires Readable(kind, m)
    ensures "ETag" !in ParseMetadata(kind, m)
  {
    var hs := ParseMetadata(kind, m);
    var n := "ETag";
    PrefixFirstChar(n, "x-");
    assert n[0] == 'E';
    assert !(Forwarded(n) || n == "content-type");
    assert forall h :: h in hs ==> Forwarded(h) || (kind == S3 && h == "content-type");
  }

  // ------------------------------------------------------------------ Get, Head

  /** Where a lookup of the object's native key lands. */
  function Found(obj: FileObject, c: Container): Outcome<Item> {
    c.Lookup(GetKey(obj))
  }

  /** `Head` and the response part of `Get` run without a failed type assertion. */
  predicate HeadReady(obj: FileObject, client: Client, mime: string -> string) {
    client.Connected? && Found(obj, client.container).Ok? ==>
      ResponseReady(obj, Found(obj, client.container).value, mime)
  }

  /** `Get` also asks `isDir` of every item it finds. */
  predicate GetReady(obj: FileObject, client: Client, mime: string -> string) {
    && HeadReady(obj, client, mime)
    && (client.Connected? && Found(obj, client.container).Ok? ==> DirHintsTyped(Found(obj, client.container).value))
  }

  /** `Head`: 503 without a backend, 500 when the lookup fails, 404 with the
      not-found body when the native key holds nothing, and otherwise the response
      assembled from the item, without a body. */
  function Head(obj: FileObject, client: Client, mime: string -> string): (r: Response)
    requires HeadReady(obj, client, mime)
    ensures client.Unavailable? ==> r == ErrorResponse(503)
    ensures client.Connected? ==>
      var c := client.container;
      var key := GetKey(obj);
      && (key in c.unreadable ==> r == ErrorResponse(500))
      && (key !in c.unreadable && key !in c.items ==> r == TextResponse(404, NotFoundBody))
      && (key !in c.unreadable && key in c.items ==> r == PrepareResponse(obj, c.items[key], NoBody, mime))
    ensures r.status == 200 ==> client.Connected? && GetKey(obj) in client.container.items && r.body == NoBody
  {
    match client
    case Unavailable => ErrorResponse(503)
    case Connected(c) =>
      match Found(obj, c)
      case NotFound => TextResponse(404, NotFoundBody)
      case Err => ErrorResponse(500)
      case Ok(it) => PrepareResponse(obj, it, NoBody, mime)
  }

  /** `Get`: as `Head` up to the lookup; a directory answers 404 with no content and
      an XML content type; an item whose content cannot be opened answers 500; any
      other item answers with its content as the body. */
  function Get(obj: FileObject, client: Client, mime: string -> string): (r: Response)
    requires GetReady(obj, client, mime)
    ensures client.Unavailable? ==> r == ErrorResponse(503)
    ensures client.Connected? ==>
      var c := client.container;
      var key := GetKey(obj);
      && (key in c.unreadable ==> r == ErrorResponse(500))
      && (key !in c.unreadable && key !in c.items ==> r == TextResponse(404, NotFoundBody))
      && (key !in c.unreadable && key in c.items && IsDir(c.items[key]) ==>
            r == NoContent(404).(contentType := Some(XmlType)))
      && (key !in c.unreadable && key in c.items && !IsDir(c.items[key]) ==>
            (c.items[key].content.None? ==> r == ErrorResponse(500))
            && (c.items[key].content.Some? ==>
                  r == PrepareResponse(obj, c.items[key], Stream(c.items[key].content.value), mime)))
  {
    match client
    case Unavailable => ErrorResponse(503)
    case Connected(c) =>
      match Found(obj, c)
      case NotFound => TextResponse(404, NotFoundBody)
      case Err => ErrorResponse(500)
      case Ok(it) =>
        if !IsDir(it) then
          match it.content
          case None => ErrorResponse(500)
          case Some(data) => PrepareResponse(obj, it, Stream(data), mime)
        else NoContent(404).(contentType := Some(XmlType))
  }

  /** `Head` never opens the content: replacing the stored item's content, or making
      it unreadable, leaves the response as it was. */
  lemma HeadIgnoresContent(obj: FileObject, c: Container, content: Option<string>, mime: string -> string)
    requires HeadReady(obj, Connected(c), mime)
    requires GetKey(obj) in c.items
    ensures var key := GetKey(obj);
      var c' := c.(items := c.items[key := c.items[key].(content := content)]);
      HeadReady(obj, Connected(c'), mime) && Head(obj, Connected(c'), mime) == Head(obj, Connected(c), mime)
  {
    var key := GetKey(obj);
    var c' := c.(items := c.items[key := c.items[key].(content := content)]);
    if key !in c.unreadable {
      PrepareIgnoresContent(obj, c.items[key], content, NoBody, mime);
      assert Found(obj, c') == Ok(c.items[key].(content := content));
    }
  }

  /** The response assembly does not look at the content. */
  lemma PrepareIgnoresContent(obj: FileObject, it: Item, content: Option<string>, body: Body, mime: string -> string)
    requires ResponseReady(obj, it, mime)
    ensures ResponseReady(obj, it.(content := content), mime)
    ensures PrepareResponse(obj, it.(content := content), body, mime) == PrepareResponse(obj, it, body, mime)
  {
    var it' := it.(content := content);
    if it.metadata.Some? && it.etag.Some? && it.lastMod.Some? {
      assert DirHintsTyped(it') == DirHintsTyped(it);
      assert ContentTypeOf(obj, it', mime) == ContentTypeOf(obj, it, mime);
    }
  }

  /** `Get` and `Head` agree on everything but the body for a regular file that
      opens; they agree entirely on every other outcome but a directory. */
  lemma GetAgreesWithHead(obj: FileObject, client: Client, mime: string -> string)
    requires GetReady(obj, client, mime)
    ensures var g, h := Get(obj, client, mime), Head(obj, client, mime);
      if client.Connected? && Found(obj, client.container).Ok? then
        var it := Found(obj, client.container).value;
        if IsDir(it) then g.status == 404 && h.status != 404
        else if it.content.None? then g == ErrorResponse(500)
        else (g.status == h.status
              && (h.status == 200 ==> g == h.(body := Stream(it.content.value)))
              && (h.status != 200 ==> g == h))
      else g == h
  {
  }

  // ------------------------------------------------------------------------ Set

  /** `http.Header.Get`: the first value under the exact name, or "". */
  function HeaderGet(h: Header, name: string): (v: string)
    ensures name in h.entries && |h.entries[name]| > 0 ==> v == h.entries[name][0]
    ensures v != "" ==> name in h.entries && |h.entries[name]| > 0
  {
    if name in h.entries && |h.entries[name]| > 0 then h.entries[name][0] else ""
  }

  /** The item the backend holds after a successful write: the native key as its id
      and name, the given length and content, the metadata `prepareMetadata` builds,
      and the etag and modification time the backend assigns. */
  function Stored(obj: FileObject, h: Header, contentLen: int, data: string, etag: string, now: int): (it: Item)
    requires HasFirstValues(obj.storage.kind, h)
    ensures it.metadata.Some? && it.metadata.value == PrepareMetadata(obj.storage.kind, h)
    ensures it.id == GetKey(obj) && it.content == Some(data) && it.size == Some(contentLen)
  {
    Item(GetKey(obj), GetKey(obj), Some(contentLen), Some(etag), Some(now),
         Some(PrepareMetadata(obj.storage.kind, h)), Some(data))
  }

  /** Whether a write is answered without touching the backend: for s3 only, a
      zero-length write whose test string ends in a separator. */
  predicate SkipsWrite(kind: Kind, contentLen: int, tested: string)
    ensures SkipsWrite(kind, contentLen, tested) <==>
      kind == S3 && contentLen == 0 && tested != "" && tested[|tested| - 1] == '/'
  {
    assert tested != "" ==> tested[|tested| - 1..] == [tested[|tested| - 1]];
    kind == S3 && contentLen == 0 && HasSuffix(tested, "/")
  }

  /** The outcome of a write, given the string the s3 directory test looks at: 503
      without a backend; a skipped write answers 200 and touches nothing; a failed put
      answers 500 and touches nothing; otherwise the item is stored under the native
      key and the answer is 200 carrying the request's `Content-Type`. */
  predicate WriteAnswered(obj: FileObject, h: Header, contentLen: int, data: string, etag: string, now: int,
                          client: Client, tested: string, e: Effect)
    requires client.Connected? && !SkipsWrite(obj.storage.kind, contentLen, tested) ==> HasFirstValues(obj.storage.kind, h)
  {
    && (client.Unavailable? ==> e == Effect(ErrorResponse(503), client))
    && (client.Connected? && SkipsWrite(obj.storage.kind, contentLen, tested) ==> e == Effect(NoContent(200), client))
    && (client.Connected? && !SkipsWrite(obj.storage.kind, contentLen, tested) ==>
          var c := client.container;
          var key := GetKey(obj);
          && (key in c.unwritable ==> e == Effect(ErrorResponse(500), client))
          && (key !in c.unwritable ==>
                && e.response == NoContent(200).(contentType := Some(HeaderGet(h, "Content-Type")))
                && e.client == Connected(c.(items := c.items[key := Stored(obj, h, contentLen, data, etag, now)]))))
  }

  /** A write given the string the s3 directory test looks at. */
  function Write(obj: FileObject, h: Header, contentLen: int, data: string, etag: string, now: int,
                 client: Client, tested: string): (e: Effect)
    requires client.Connected? && !SkipsWrite(obj.storage.kind, contentLen, tested) ==> HasFirstValues(obj.storage.kind, h)
    ensures WriteAnswered(obj, h, contentLen, data, etag, now, client, tested, e)
    ensures e.client != client ==> WroteOnly(obj, client, e.client, data)
  {
    match client
    case Unavailable => Effect(ErrorResponse(503), client)
    case Connected(c) =>
      if SkipsWrite(obj.storage.kind, contentLen, tested) then Effect(NoContent(200), client)
      else
        match c.Put(GetKey(obj), Stored(obj, h, contentLen, data, etag, now))
        case Ok(c') =>
          UpdateThenDrop(c.items, GetKey(obj), Stored(obj, h, contentLen, data, etag, now));
          Effect(NoContent(200).(contentType := Some(HeaderGet(h, "Content-Type"))), Connected(c'))
        case _ => Effect(ErrorResponse(500), client)
  }

  /** A write changed the backend only by storing `data` under the object's native
      key. */
  predicate WroteOnly(obj: FileObject, before: Client, after: Client, data: string) {
    && before.Connected? && after.Connected?
    && var key := GetKey(obj);
    && key in after.container.items
    && after.container.items[key].content == Some(data)
    && after.container.items - {key} == before.container.items - {key}
    && after.container.unreadable == before.container.unreadable
    && after.container.unwritable == before.container.unwritable
  }

  lemma UpdateThenDrop(m: map<string, Item>, k: string, v: Item)
    ensures m[k := v] - {k} == m - {k}
  {
  }

  /** `Set` as written: the s3 directory test looks at the resolved native key. */
  function Set(obj: FileObject, h: Header, contentLen: int, data: string, etag: string, now: int,
               client: Client): (e: Effect)
    requires client.Connected? && !SkipsWrite(obj.storage.kind, contentLen, GetKey(obj)) ==> HasFirstValues(obj.storage.kind, h)
    ensures WriteAnswered(obj, h, contentLen, data, etag, now, client, GetKey(obj), e)
    ensures e.client.Connected? <==> client.Connected?
    ensures e.response.status == 200 || e.client == client
    ensures e.client != client ==> WroteOnly(obj, client, e.client, data)
  {
    Write(obj, h, contentLen, data, etag, now, client, GetKey(obj))
  }

  /** `Set` as evidently intended: the s3 directory test looks at the logical key. */
  function SetIntended(obj: FileObject, h: Header, contentLen: int, data: string, etag: string, now: int,
                       client: Client): (e: Effect)
    requires client.Connected? && !SkipsWrite(obj.storage.kind, contentLen, obj.key) ==> HasFirstValues(obj.storage.kind, h)
    ensures WriteAnswered(obj, h, contentLen, data, etag, now, client, obj.key, e)
    ensures e.client.Connected? <==> client.Connected?
    ensures e.response.status == 200 || e.client == client
    ensures e.client != client ==> WroteOnly(obj, client, e.client, data)
  {
    Write(obj, h, contentLen, data, etag, now, client, obj.key)
  }

  /** As written, the s3 directory short-circuit fires only for the root key "/":
      a resolved key never ends in a separator otherwise. */
  lemma SetSkipsOnlyAtRoot(obj: FileObject, contentLen: int)
    requires SkipsWrite(obj.storage.kind, contentLen, GetKey(obj))
    ensures GetKey(obj) == "/"
  {
  }

  /** The directory write "photos/" on s3 with an empty body: as written it stores an
      item under "photos"; as intended it is answered without touching the backend. */
  lemma SetDirectoryCounterexample()
    ensures var obj := FileObject("photos/", "bucket", "/photos/", StorageConfig(S3, ""));
      var h: Header := Ordered(map[], []);
      var c := Container(map[], {}, {});
      && "photos" in Set(obj, h, 0, "", "", 0, Connected(c)).client.container.items
      && SetIntended(obj, h, 0, "", "", 0, Connected(c)) == Effect(NoContent(200), Connected(c))
  {
    var obj := FileObject("photos/", "bucket", "/photos/", StorageConfig(S3, ""));
    var h: Header := Ordered(map[], []);
    var c := Container(map[], {}, {});
    TrailingSlashDropped("photos", "bucket", "/photos/");
    assert "photos" + "/" == "photos/";
    assert !HasSuffix("photos", "/");
    assert !SkipsWrite(S3, 0, GetKey(obj));
    var e := Set(obj, h, 0, "", "", 0, Connected(c));
    assert e.client == Connected(c.(items := c.items["photos" := Stored(obj, h, 0, "", "", 0)]));
    assert HasSuffix(obj.key, "/");
    SetIntendedSkipsDirectories(obj, h, "", "", 0, c);
  }

  /** As intended, a zero-length s3 write to a logical key ending in a separator never
      touches the backend and succeeds. */
  lemma SetIntendedSkipsDirectories(obj: FileObject, h: Header, data: string, etag: string, now: int, c: Container)
    requires obj.storage.kind == S3 && HasSuffix(obj.key, "/")
    ensures SetIntended(obj, h, 0, data, etag, now, Connected(c)) == Effect(NoContent(200), Connected(c))
  {
  }

  /** A written item reads back, whichever string the s3 directory test looked at (so
      for `Set` as written and as intended alike): `Head` answers 200 with the written
      length, the backend's etag (as a header when non-empty) and modification time,
      and the content type the write was answered with when the request named one. */
  lemma WriteThenHead(obj: FileObject, h: Header, contentLen: int, data: string, etag: string, now: int,
                      c: Container, mime: string -> string, tested: string)
    requires HasFirstValues(obj.storage.kind, h) && NoCollision(obj.storage.kind, h)
    requires "is_dir" !in PrepareMetadata(obj.storage.kind, h).entries
    requires GetKey(obj) !in c.unreadable
    requires !SkipsWrite(obj.storage.kind, contentLen, tested)
    requires Write(obj, h, contentLen, data, etag, now, Connected(c), tested).response.status == 200
    ensures var e := Write(obj, h, contentLen, data, etag, now, Connected(c), tested);
      HeadReady(obj, e.client, mime)
      && var r := Head(obj, e.client, mime);
      && r.status == 200
      && r.contentLength == Some(contentLen)
      && r.lastModified == Some(now)
      && ("ETag" in r.headers <==> etag != "")
      && (HeaderGet(h, "Content-Type") != "" ==> r.contentType == e.response.contentType)
  {
    var kind := obj.storage.kind;
    var e := Write(obj, h, contentLen, data, etag, now, Connected(c), tested);
    var it := Stored(obj, h, contentLen, data, etag, now);
    var m := it.metadata.value;
    assert e.client.container.items[GetKey(obj)] == it;
    StoredReady(obj, h, contentLen, data, etag, now, mime);
    var v := HeaderGet(h, "Content-Type");
    if v != "" {
      ContentTypeStored(kind, h);
    }
  }

  /** The item a write stores is one `prepareResponse` can answer for. */
  lemma StoredReady(obj: FileObject, h: Header, contentLen: int, data: string, etag: string, now: int, mime: string -> string)
    requires HasFirstValues(obj.storage.kind, h)
    requires "is_dir" !in PrepareMetadata(obj.storage.kind, h).entries
    ensures ResponseReady(obj, Stored(obj, h, contentLen, data, etag, now), mime)
  {
    var m := PrepareMetadata(obj.storage.kind, h).entries;
    assert 'A' <= "Content-Type"[0] <= 'Z';
    assert "Content-Type" !in m;
  }

  /** A `Content-Type` request header is stored as `content-type` with its first
      value, and nothing is stored as `Content-Type`. */
  lemma ContentTypeStored(kind: Kind, h: Header)
    requires HasFirstValues(kind, h) && NoCollision(kind, h)
    requires HeaderGet(h, "Content-Type") != ""
    ensures var m := PrepareMetadata(kind, h).entries;
      && "Content-Type" !in m
      && "content-type" in m && m["content-type"] == Str(HeaderGet(h, "Content-Type"))
  {
    var k := "Content-Type";
    ContentTypeLower();
    ContentTypeName(kind, k);
    PrepareStoresFirstValue(kind, h, k);
    assert 'A' <= k[0] <= 'Z';
  }

  // --------------------------------------------------------------------- Delete

  /** `Delete`: 503 without a backend; otherwise `Head` decides. A found item is
      removed under its native key (500 when that fails, else `Head`'s response); a
      missing one is answered 200 with no content; any other `Head` answer is
      returned as it is. */
  function Delete(obj: FileObject, client: Client, mime: string -> string): (e: Effect)
    requires HeadReady(obj, client, mime)
    ensures client.Unavailable? ==> e == Effect(ErrorResponse(503), client)
    ensures client.Connected? ==>
      var c := client.container;
      var key := GetKey(obj);
      var head := Head(obj, client, mime);
      && (head.status == 200 && key !in c.unwritable ==> e == Effect(head, Connected(c.(items := c.items - {key}))))
      && (head.status == 200 && key in c.unwritable ==> e == Effect(ErrorResponse(500), client))
      && (head.status == 404 ==> e == Effect(NoContent(200), client))
      && (head.status != 200 && head.status != 404 ==> e == Effect(head, client))
    ensures client.Connected? ==>
      var c := client.container;
      var key := GetKey(obj);
      && (key !in c.unreadable && key !in c.items ==> e == Effect(NoContent(200), client))
      && e.client.Connected?
      && (e.client == client || e.client.container == c.(items := c.items - {key}))
      && (e.client != client ==> Head(obj, client, mime).status == 200 && e.response == Head(obj, client, mime))
      && (e.response.status == 200 ==> key !in e.client.container.items)
  {
    match client
    case Unavailable => Effect(ErrorResponse(503), client)
    case Connected(c) =>
      var head := Head(obj, client, mime);
      if head.status == 200 then
        match c.Remove(GetKey(obj))
        case Ok(c') => Effect(head, Connected(c'))
        case _ => Effect(ErrorResponse(500), client)
      else if head.status == 404 then Effect(NoContent(200), client)
      else Effect(head, client)
  }

  /** Deleting twice: once a delete has answered 200, deleting again answers 200
      with no content and leaves the backend as it is. */
  lemma DeleteIdempotent(obj: FileObject, client: Client, mime: string -> string)
    requires HeadReady(obj, client, mime)
    requires Delete(obj, client, mime).response.status == 200
    ensures var e := Delete(obj, client, mime);
      HeadReady(obj, e.client, mime)
      && Delete(obj, e.client, mime) == Effect(NoContent(200), e.client)
  {
    var e := Delete(obj, client, mime);
    var key := GetKey(obj);
    assert key !in e.client.container.unreadable;
  }

  /** Deleting a stored, readable and removable item whose response can be assembled
      answers 200 and removes it; deleting it again answers 200 with no content. */
  lemma DeleteExisting(obj: FileObject, c: Container, mime: string -> string)
    requires HeadReady(obj, Connected(c), mime)
    requires var key := GetKey(obj);
      key in c.items && key !in c.unreadable && key !in c.unwritable
    requires var it := c.items[GetKey(obj)];
      it.metadata.Some? && it.etag.Some? && it.lastMod.Some?
    ensures var e := Delete(obj, Connected(c), mime);
      && e.response.status == 200
      && e.client == Connected(c.(items := c.items - {GetKey(obj)}))
      && HeadReady(obj, e.client, mime)
      && Delete(obj, e.client, mime) == Effect(NoContent(200), e.client)
  {
    var key := GetKey(obj);
    assert Head(obj, Connected(c), mime).status == 200;
    DeleteIdempotent(obj, Connected(c), mime);
  }

  /** A delete touches nothing but the object's own native key. */
  lemma DeleteOnlyOwnKey(obj: FileObject, client: Client, mime: string -> string, other: string)
    requires HeadReady(obj, client, mime) && client.Connected?
    requires other != GetKey(obj) && other in client.container.items
    ensures var e := Delete(obj, client, mime);
      other in e.client.container.items && e.client.container.items[other] == client.container.items[other]
  {
  }
}

=== FILE: paths.dfy ===
/** Slash-separated path manipulation with the meaning Go's `path` package gives it:
    `Clean`, `Join` of two elements and `Ext`. */
module Paths {
  import opened Strings

  /** No two separators are adjacent. */
  predicate NoDoubleSlash(s: string) {
    forall i :: 0 <= i < |s| - 1 ==> !(s[i] == '/' && s[i + 1] == '/')
  }

  /** An element that survives cleaning: non-empty, separator-free, not ".". */
  predicate IsElement(e: string) {
    e != "" && e != "." && '/' !in e
  }

  predicate AllElements(st: seq<string>) {
    forall i :: 0 <= i < |st| ==> IsElement(st[i])
  }

  /** The shape of a cleaned element stack: ".." elements only in front (none at
      all in a rooted path), real elements after them. */
  predicate Canonical(st: seq<string>, rooted: bool) {
    && AllElements(st)
    && (forall i :: 0 <= i < |st| && st[i] == ".." ==> !rooted)
    && (forall i, j :: 0 <= i < j < |st| && st[j] == ".." ==> st[i] == "..")
  }

  /** One element of `path.Clean`'s lexical scan: empty and "." elements vanish,
      ".." removes the last real element, or is dropped at the root, or is kept
      in front of a relative path. */
  function Step(st: seq<string>, e: string, rooted: bool): (st': seq<string>)
    requires Canonical(st, rooted) && '/' !in e
    ensures Canonical(st', rooted)
  {
    if e == "" || e == "." then st
    else if e == ".." then
      if |st| > 0 && st[|st| - 1] != ".." then st[..|st| - 1]
      else if rooted then st
      else st + [".."]
    else st + [e]
  }

  /** The scan over all elements, left to right. */
  function Scan(st: seq<string>, es: seq<string>, rooted: bool): (st': seq<string>)
    requires Canonical(st, rooted)
    requires forall i :: 0 <= i < |es| ==> '/' !in es[i]
    ensures Canonical(st', rooted)
    decreases |es|
  {
    if es == [] then st else Scan(Step(st, es[0], rooted), es[1..], rooted)
  }

  /** Joining real elements gives a path with no doubled, leading or trailing
      separator, empty exactly when there are no elements. */
  lemma {:induction false} JoinElements(st: seq<string>)
    requires AllElements(st)
    ensures var j := JoinSlash(st);
      && NoDoubleSlash(j)
      && (j == "" <==> st == [])
      && (j != "" ==> j[0] != '/' && j[|j| - 1] != '/')
  {
    if |st| == 1 {
      assert st[0][0] in st[0];
      assert st[0][|st[0]| - 1] in st[0];
    } else if |st| > 1 {
      JoinElements(st[1..]);
      var a, t := st[0], JoinSlash(st[1..]);
      var j := a + "/" + t;
      assert a[0] in a;
      assert a[|a| - 1] in a;
      forall i | 0 <= i < |j| - 1 ensures !(j[i] == '/' && j[i + 1] == '/') {
        if i < |a| {
          assert j[i] == a[i];
          assert a[i] in a;
        } else if i > |a| {
          assert j[i] == t[i - |a| - 1] && j[i + 1] == t[i - |a|];
        }
      }
    }
  }

  /** The path spelled by a cleaned element stack. */
  function Render(st: seq<string>, rooted: bool): (r: string)
    requires AllElements(st)
    ensures r != ""
    ensures NoDoubleSlash(r)
    ensures HasSuffix(r, "/") ==> r == "/"
    ensures r[0] == '/' <==> rooted
  {
    var body := JoinSlash(st);
    JoinElements(st);
    if rooted then
      assert body != "" ==> ("/" + body)[1] == body[0];
      assert body != "" ==> ("/" + body)[|body|] == body[|body| - 1];
      "/" + body
    else if body == "" then "."
    else body
  }

  /** `path.Clean`: the shortest equivalent path by lexical processing. Never empty,
      never a doubled separator, a trailing separator only for the root itself, and
      rooted exactly when the input is. */
  function Clean(p: string): (r: string)
    ensures r != ""
    ensures NoDoubleSlash(r)
    ensures HasSuffix(r, "/") ==> r == "/"
    ensures p != "" ==> (r[0] == '/' <==> p[0] == '/')
  {
    if p == "" then "."
    else
      var rooted := p[0] == '/';
      Render(Scan([], SplitSlash(p), rooted), rooted)
  }

  /** Scanning a stack that is already canonical rebuilds it unchanged. */
  lemma {:induction false} ScanCanonical(acc: seq<string>, st: seq<string>, rooted: bool)
    requires Canonical(acc + st, rooted)
    ensures Canonical(acc, rooted) && AllElements(st)
    ensures Scan(acc, st, rooted) == acc + st
    decreases |st|
  {
    assert forall i :: 0 <= i < |acc| ==> acc[i] == (acc + st)[i];
    assert forall i :: 0 <= i < |st| ==> st[i] == (acc + st)[|acc| + i];
    if st != [] {
      var e := st[0];
      assert (acc + [e]) + st[1..] == acc + st;
      if e == ".." {
        assert |acc| > 0 ==> acc[|acc| - 1] == "..";
      }
      assert Step(acc, e, rooted) == acc + [e];
      ScanCanonical(acc + [e], st[1..], rooted);
    }
  }

  /** Cleaning the rendering of a canonical stack gives it back. */
  lemma CleanRender(st: seq<string>, rooted: bool)
    requires Canonical(st, rooted)
    ensures Clean(Render(st, rooted)) == Render(st, rooted)
  {
    var r := Render(st, rooted);
    ScanRendered(st, rooted);
    assert r[0] == '/' <==> rooted;
    assert Clean(r) == Render(Scan([], SplitSlash(r), rooted), rooted);
  }

  /** Scanning the parts of a rendered canonical stack rebuilds the stack. */
  lemma ScanRendered(st: seq<string>, rooted: bool)
    requires Canonical(st, rooted)
    ensures forall i :: 0 <= i < |SplitSlash(Render(st, rooted))| ==> '/' !in SplitSlash(Render(st, rooted))[i]
    ensures Scan([], SplitSlash(Render(st, rooted)), rooted) == st
  {
    var body := JoinSlash(st);
    var r := Render(st, rooted);
    JoinElements(st);
    assert [] + st == st;
    if !rooted {
      if st == [] {
        assert r == ".";
        SplitNoSlash(".");
        assert Scan([], ["."], false) == Scan(Step([], ".", false), [], false);
      } else {
        assert r == body;
        SplitJoin(st);
        ScanCanonical([], st, false);
      }
    } else {
      assert r == "" + "/" + body;
      SplitCons("", body);
      if st == [] {
        SplitNoSlash("");
        assert SplitSlash(r) == ["", ""];
        assert Scan([], ["", ""], true) == Scan([], [""] + [""], true);
        ScanSkipsEmpty([], [""], true);
        assert Scan([], [""], true) == Scan(Step([], "", true), [], true);
      } else {
        SplitJoin(st);
        assert SplitSlash(r) == [""] + st;
        ScanCanonical([], st, true);
        ScanSkipsEmpty([], st, true);
      }
    }
  }

  /** Cleaning is idempotent. */
  lemma CleanIdempotent(p: string)
    ensures Clean(Clean(p)) == Clean(p)
  {
    if p != "" {
      var rooted := p[0] == '/';
      var st := Scan([], SplitSlash(p), rooted);
      assert Clean(p) == Render(st, rooted);
      CleanRender(st, rooted);
    } else {
      CleanDot();
    }
  }

  lemma CleanDot()
    ensures Clean(".") == "."
  {
    SplitNoSlash(".");
  }

  /** Scanning two runs of elements is scanning the first, then the second. */
  lemma {:induction false} ScanAppend(st: seq<string>, es: seq<string>, fs: seq<string>, rooted: bool)
    requires Canonical(st, rooted)
    requires forall i :: 0 <= i < |es| ==> '/' !in es[i]
    requires forall i :: 0 <= i < |fs| ==> '/' !in fs[i]
    ensures forall i :: 0 <= i < |es + fs| ==> '/' !in (es + fs)[i]
    ensures Scan(st, es + fs, rooted) == Scan(Scan(st, es, rooted), fs, rooted)
    decreases |es|
  {
    assert forall i :: 0 <= i < |es + fs| ==> '/' !in (es + fs)[i] by {
      forall i | 0 <= i < |es + fs| ensures '/' !in (es + fs)[i] {
        if i < |es| { assert (es + fs)[i] == es[i]; } else { assert (es + fs)[i] == fs[i - |es|]; }
      }
    }
    if es == [] {
      assert es + fs == fs;
    } else {
      assert (es + fs)[0] == es[0] && (es + fs)[1..] == es[1..] + fs;
      ScanAppend(Step(st, es[0], rooted), es[1..], fs, rooted);
    }
  }

  /** A trailing separator does not survive cleaning. */
  lemma CleanTrailingSlash(p: string)
    requires p != ""
    ensures Clean(p + "/") == Clean(p)
  {
    var rooted := p[0] == '/';
    var ps := SplitSlash(p);
    assert p + "/" == p + "/" + "";
    SplitAppend(p, "");
    SplitNoSlash("");
    ScanAppend([], ps, [""], rooted);
    var st := Scan([], ps, rooted);
    assert Scan(st, [""], rooted) == Scan(Step(st, "", rooted), [], rooted);
    assert (p + "/")[0] == p[0];
  }

  /** A doubled separator contributes one empty part. */
  lemma SplitDoubleSlash(a: string, b: string)
    ensures SplitSlash(a + "//" + b) == SplitSlash(a) + ([""] + SplitSlash(b))
  {
    assert a + "//" + b == a + "/" + ("" + "/" + b);
    SplitAppend(a, "" + "/" + b);
    SplitCons("", b);
  }

  /** An empty element leaves the scan where it was. */
  lemma ScanSkipsEmpty(st: seq<string>, fs: seq<string>, rooted: bool)
    requires Canonical(st, rooted)
    requires forall i :: 0 <= i < |fs| ==> '/' !in fs[i]
    ensures forall i :: 0 <= i < |[""] + fs| ==> '/' !in ([""] + fs)[i]
    ensures Scan(st, [""] + fs, rooted) == Scan(st, fs, rooted)
  {
    assert forall i :: 0 <= i < |[""] + fs| ==> ([""] + fs)[i] == if i == 0 then "" else fs[i - 1];
    assert ([""] + fs)[1..] == fs;
  }

  /** A doubled separator cleans like a single one. */
  lemma CleanDoubleSlash(a: string, b: string)
    ensures Clean(a + "//" + b) == Clean(a + "/" + b)
  {
    var pa, pb := SplitSlash(a), SplitSlash(b);
    SplitDoubleSlash(a, b);
    SplitAppend(a, b);
    var rooted := (a + "/" + b)[0] == '/';
    assert (a + "//" + b)[0] == (a + "/" + b)[0];
    var st := Scan([], pa, rooted);
    ScanSkipsEmpty(st, pb, rooted);
    ScanAppend([], pa, [""] + pb, rooted);
    ScanAppend([], pa, pb, rooted);
  }

  /** `path.Join(a, b)`: empty when both are empty, else the cleaned join, which
      cleaning leaves alone. */
  function Join(a: string, b: string): (r: string)
    ensures r == "" <==> a == "" && b == ""
    ensures NoDoubleSlash(r)
    ensures HasSuffix(r, "/") ==> r == "/"
    ensures r != "" ==> Clean(r) == r
  {
    if a == "" && b == "" then ""
    else if a == "" then CleanIdempotent(b); Clean(b)
    else CleanIdempotent(a + "/" + b); Clean(a + "/" + b)
  }

  /** `path.Ext`: the suffix from the final dot of the last element, or "" when
      that element has no dot. */
  function Ext(p: string): (r: string)
    ensures r != "" ==> HasSuffix(p, r) && r[0] == '.' && '/' !in r && '.' !in r[1..]
    ensures r == "" ==> forall i :: 0 <= i < |p| && '/' !in p[i..] ==> p[i] != '.'
  {
    if |p| == 0 || p[|p| - 1] == '/' then
      assert forall i :: 0 <= i < |p| ==> p[|p| - 1] in p[i..];
      ""
    else if p[|p| - 1] == '.' then "."
    else
      var q, c := p[..|p| - 1], p[|p| - 1];
      assert p == q + [c];
      var e := Ext(q);
      if e == "" then
        ExtNoDot(q, c);
        ""
      else
        ExtExtend(q, c, e);
        e + [c]
  }

  /** A last element without a dot keeps none when a character other than a
      separator or a dot is appended. */
  lemma ExtNoDot(q: string, c: char)
    requires c != '/' && c != '.'
    requires forall i :: 0 <= i < |q| && '/' !in q[i..] ==> q[i] != '.'
    ensures forall i :: 0 <= i < |q + [c]| && '/' !in (q + [c])[i..] ==> (q + [c])[i] != '.'
  {
    forall i | 0 <= i < |q + [c]| && '/' !in (q + [c])[i..] ensures (q + [c])[i] != '.' {
      if i < |q| {
        assert (q + [c])[i..] == q[i..] + [c];
        assert (q + [c])[i] == q[i];
      }
    }
  }

  /** An extension grows by a character other than a separator or a dot appended to
      the path. */
  lemma ExtExtend(q: string, c: char, e: string)
    requires c != '/' && c != '.'
    requires e != "" && HasSuffix(q, e) && e[0] == '.' && '/' !in e && '.' !in e[1..]
    ensures var r := e + [c];
      HasSuffix(q + [c], r) && r[0] == '.' && '/' !in r && '.' !in r[1..]
  {
    var p, r := q + [c], e + [c];
    assert p[|p| - |r|..] == q[|q| - |e|..] + [c];
    assert r[1..] == e[1..] + [c];
  }
}

=== FILE: strings.dfy ===
/** String helpers with the meaning Go's `strings` package gives them, restricted to
    what the storage layer uses. Case mapping covers ASCII letters only. */
module Strings {

  /** Lower-casing of one character (ASCII letters only). */
  function LowerChar(c: char): char {
    if 'A' <= c <= 'Z' then (c as int + 32) as char else c
  }

  /** No upper-case ASCII letter occurs in `s`. */
  predicate IsLower(s: string) {
    forall i :: 0 <= i < |s| ==> !('A' <= s[i] <= 'Z')
  }

  /** `strings.ToLower`. */
  function ToLower(s: string): (r: string)
    ensures |r| == |s|
    ensures forall i :: 0 <= i < |s| ==> r[i] == LowerChar(s[i])
    ensures IsLower(r)
  {
    if s == [] then [] else [LowerChar(s[0])] + ToLower(s[1..])
  }

  /** Lower-casing leaves a lower-case string alone, so it is idempotent. */
  lemma ToLowerOfLower(s: string)
    requires IsLower(s)
    ensures ToLower(s) == s
  {
    var r := ToLower(s);
    assert forall i :: 0 <= i < |s| ==> r[i] == s[i];
  }

  /** Lower-casing is decided character by character. */
  lemma ToLowerPointwise(s: string, t: string)
    requires |s| == |t| && forall i :: 0 <= i < |s| ==> LowerChar(s[i]) == t[i]
    ensures ToLower(s) == t
  {
  }

  /** `strings.HasPrefix`: `s` is `p` followed by the rest. */
  predicate HasPrefix(s: string, p: string)
    ensures HasPrefix(s, p) <==> |p| <= |s| && s == p + s[|p|..]
  {
    assert |p| <= |s| ==> s == s[..|p|] + s[|p|..];
    |p| <= |s| && s[..|p|] == p
  }

  /** `strings.HasSuffix`: `s` is the rest followed by `x`. */
  predicate HasSuffix(s: string, x: string)
    ensures HasSuffix(s, x) <==> |x| <= |s| && s == s[..|s| - |x|] + x
  {
    assert |x| <= |s| ==> s == s[..|s| - |x|] + s[|s| - |x|..];
    |x| <= |s| && s[|s| - |x|..] == x
  }

  /** A string with a non-empty prefix starts with the prefix's first character. */
  lemma PrefixFirstChar(s: string, p: string)
    ensures HasPrefix(s, p) && |p| > 0 ==> |s| > 0 && s[0] == p[0]
  {
    if HasPrefix(s, p) && |p| > 0 {
      assert s[..|p|][0] == s[0];
    }
  }

  /** A prefix of a prefix is a prefix. */
  lemma PrefixTransitive(s: string, p: string, q: string)
    requires HasPrefix(s, p) && HasPrefix(p, q)
    ensures HasPrefix(s, q)
  {
    assert s[..|q|] == s[..|p|][..|q|];
  }

  /** A string with prefix `p` is `p` followed by the rest. */
  lemma PrefixSplit(s: string, p: string)
    requires HasPrefix(s, p)
    ensures s == p + s[|p|..]
  {
    assert s == s[..|p|] + s[|p|..];
  }

  /** A string with suffix `x` is the rest followed by `x`. */
  lemma SuffixSplit(s: string, x: string)
    requires HasSuffix(s, x)
    ensures s == s[..|s| - |x|] + x
  {
    assert s == s[..|s| - |x|] + s[|s| - |x|..];
  }

  /** `strings.TrimPrefix`: removes `p` once if `s` starts with it. */
  function TrimPrefix(s: string, p: string): (r: string)
    ensures HasPrefix(s, p) ==> p + r == s
    ensures !HasPrefix(s, p) ==> r == s
  {
    if HasPrefix(s, p) then s[|p|..] else s
  }

  /** `pat` occurs in `s` starting at index `i`. */
  predicate OccursAt(s: string, pat: string, i: int) {
    0 <= i && i + |pat| <= |s| && s[i..i + |pat|] == pat
  }

  /** `i` is where the first occurrence of `pat` in `s` starts. */
  predicate FirstOccurrence(s: string, pat: string, i: int) {
    OccursAt(s, pat, i) && forall j :: 0 <= j < i ==> !OccursAt(s, pat, j)
  }

  /** `strings.Replace(s, pat, "", 1)`: deletes the first occurrence of `pat`,
      wherever it is, and leaves `s` alone when there is none. */
  function DeleteFirst(s: string, pat: string): (r: string)
    requires pat != []
    ensures forall i :: FirstOccurrence(s, pat, i) ==> r == s[..i] + s[i + |pat|..]
    ensures (forall i :: !OccursAt(s, pat, i)) ==> r == s
    ensures HasPrefix(s, pat) ==> r == s[|pat|..]
    ensures pat[0] !in s ==> r == s
    ensures r == s || |r| + |pat| == |s|
    ensures forall i :: 0 <= i < |r| ==> r[i] in s
    decreases |s|
  {
    if |s| < |pat| then s
    else if s[..|pat|] == pat then
      assert OccursAt(s, pat, 0) && s[..0] + s[|pat|..] == s[|pat|..];
      s[|pat|..]
    else
      var rest := DeleteFirst(s[1..], pat);
      assert forall i :: 0 <= i < |rest| ==> rest[i] in s by {
        forall i | 0 <= i < |rest| ensures rest[i] in s {
          var j :| 0 <= j < |s[1..]| && s[1..][j] == rest[i];
          assert s[j + 1] == rest[i];
        }
      }
      DeleteFirstStep(s, pat, rest);
      [s[0]] + rest
  }

  /** An occurrence in the tail of `s` is an occurrence in `s`, one index later. */
  lemma OccursShift(s: string, pat: string, j: int)
    requires |s| >= 1 && j >= 0
    ensures OccursAt(s[1..], pat, j) <==> OccursAt(s, pat, j + 1)
  {
    if j + |pat| <= |s| - 1 {
      assert s[1..][j..j + |pat|] == s[j + 1..j + 1 + |pat|];
    }
  }

  /** When `pat` does not start `s`, its first occurrence in `s` is its first
      occurrence in the tail, one index later, so deleting it from `s` is keeping
      `s[0]` and deleting it from the tail. */
  lemma DeleteFirstStep(s: string, pat: string, rest: string)
    requires pat != [] && |s| >= 1 && !OccursAt(s, pat, 0)
    requires forall i :: FirstOccurrence(s[1..], pat, i) ==> rest == s[1..][..i] + s[1..][i + |pat|..]
    requires (forall i :: !OccursAt(s[1..], pat, i)) ==> rest == s[1..]
    ensures forall i :: FirstOccurrence(s, pat, i) ==> [s[0]] + rest == s[..i] + s[i + |pat|..]
    ensures (forall i :: !OccursAt(s, pat, i)) ==> [s[0]] + rest == s
  {
    forall i | FirstOccurrence(s, pat, i) ensures [s[0]] + rest == s[..i] + s[i + |pat|..] {
      FirstShift(s, pat, i);
      assert s[..i] == [s[0]] + s[1..][..i - 1];
      assert s[i + |pat|..] == s[1..][i - 1 + |pat|..];
    }
    if forall i :: !OccursAt(s, pat, i) {
      AbsentShift(s, pat);
      assert [s[0]] + s[1..] == s;
    }
  }

  /** A first occurrence past index 0 is a first occurrence in the tail. */
  lemma FirstShift(s: string, pat: string, i: int)
    requires |s| >= 1 && !OccursAt(s, pat, 0) && FirstOccurrence(s, pat, i)
    ensures i >= 1 && FirstOccurrence(s[1..], pat, i - 1)
  {
    forall j | 0 <= j < i - 1 ensures !OccursAt(s[1..], pat, j) {
      OccursShift(s, pat, j);
    }
    OccursShift(s, pat, i - 1);
  }

  /** A pattern absent from `s` is absent from its tail. */
  lemma AbsentShift(s: string, pat: string)
    requires |s| >= 1 && forall i :: !OccursAt(s, pat, i)
    ensures forall j :: !OccursAt(s[1..], pat, j)
  {
    forall j ensures !OccursAt(s[1..], pat, j) {
      if j >= 0 { OccursShift(s, pat, j); }
    }
  }

  /** Deleting from a lower-case string leaves a lower-case string. */
  lemma DeleteFirstKeepsLower(s: string, pat: string)
    requires pat != [] && IsLower(s)
    ensures IsLower(DeleteFirst(s, pat))
  {
    var r := DeleteFirst(s, pat);
    forall i | 0 <= i < |r| ensures !('A' <= r[i] <= 'Z') {
      var j :| 0 <= j < |s| && s[j] == r[i];
    }
  }

  /** The number of separators in `s`. */
  function Slashes(s: string): (n: nat)
    ensures n == 0 <==> '/' !in s
    ensures n <= |s|
  {
    if s == [] then 0 else (if s[0] == '/' then 1 else 0) + Slashes(s[1..])
  }

  /** Separators add up over concatenation. */
  lemma {:induction false} SlashesConcat(a: string, b: string)
    ensures Slashes(a + b) == Slashes(a) + Slashes(b)
  {
    if a != [] {
      assert (a + b)[0] == a[0] && (a + b)[1..] == a[1..] + b;
      SlashesConcat(a[1..], b);
    } else {
      assert a + b == b;
    }
  }

  /** `strings.Join(parts, "/")`: no parts join to "", a single part is itself;
      `JoinCount` counts the separators put between neighbours. */
  function JoinSlash(parts: seq<string>): (r: string)
    ensures |parts| == 0 ==> r == ""
    ensures |parts| == 1 ==> r == parts[0]
  {
    if |parts| == 0 then ""
    else if |parts| == 1 then parts[0]
    else parts[0] + "/" + JoinSlash(parts[1..])
  }

  /** Joining separator-free parts puts exactly one separator between neighbours. */
  lemma {:induction false} JoinCount(parts: seq<string>)
    requires |parts| >= 1 && forall i :: 0 <= i < |parts| ==> '/' !in parts[i]
    ensures Slashes(JoinSlash(parts)) == |parts| - 1
  {
    if |parts| > 1 {
      JoinCount(parts[1..]);
      SlashesConcat(parts[0] + "/", JoinSlash(parts[1..]));
      SlashesConcat(parts[0], "/");
      assert Slashes("/") == 1;
    }
  }

  /** Joining two non-empty lists of parts is joining each and putting a separator
      between them. */
  lemma {:induction false} JoinAppend(a: seq<string>, b: seq<string>)
    requires |a| >= 1 && |b| >= 1
    ensures JoinSlash(a + b) == JoinSlash(a) + "/" + JoinSlash(b)
    decreases |a|
  {
    if |a| == 1 {
      assert (a + b)[1..] == b;
    } else {
      assert (a + b)[1..] == a[1..] + b;
      JoinAppend(a[1..], b);
    }
  }

  /** `strings.Split(s, "/")`: one more part than there are separators, none of them
      holding a separator, and joining them back gives `s`. */
  function SplitSlash(s: string): (parts: seq<string>)
    ensures |parts| >= 1
    ensures forall i :: 0 <= i < |parts| ==> '/' !in parts[i]
    ensures JoinSlash(parts) == s
  {
    if s == [] then [""]
    else
      var rest := SplitSlash(s[1..]);
      if s[0] == '/' then
        assert JoinSlash([""] + rest) == "" + "/" + JoinSlash(rest);
        [""] + rest
      else
        var first := [s[0]] + rest[0];
        assert '/' !in first;
        if |rest| == 1 then
          [first]
        else
          assert ([first] + rest[1..])[1..] == rest[1..];
          [first] + rest[1..]
  }

  /** There is one more part than there are separators. */
  lemma SplitCount(s: string)
    ensures |SplitSlash(s)| == Slashes(s) + 1
  {
    JoinCount(SplitSlash(s));
  }

  /** A string without separators splits into itself. */
  lemma {:induction false} SplitNoSlash(a: string)
    requires '/' !in a
    ensures SplitSlash(a) == [a]
  {
    if a != [] {
      SplitNoSlash(a[1..]);
      assert [a[0]] + a[1..] == a;
    }
  }

  /** Splitting `a + "/" + t` yields `a` followed by the parts of `t`. */
  lemma {:induction false} SplitCons(a: string, t: string)
    requires '/' !in a
    ensures SplitSlash(a + "/" + t) == [a] + SplitSlash(t)
    decreases |a|
  {
    var s := a + "/" + t;
    if a == [] {
      assert s[0] == '/' && s[1..] == t;
    } else {
      assert s[0] == a[0];
      assert s[1..] == a[1..] + "/" + t;
      SplitCons(a[1..], t);
      assert [a[0]] + a[1..] == a;
    }
  }

  /** A separator between two strings splits them apart: the parts of `s + "/" + t`
      are the parts of `s` followed by the parts of `t`. */
  lemma SplitAppend(s: string, t: string)
    ensures SplitSlash(s + "/" + t) == SplitSlash(s) + SplitSlash(t)
  {
    var ps, pt := SplitSlash(s), SplitSlash(t);
    JoinAppend(ps, pt);
    assert forall i :: 0 <= i < |ps + pt| ==> '/' !in (ps + pt)[i] by {
      forall i | 0 <= i < |ps + pt| ensures '/' !in (ps + pt)[i] {
        if i < |ps| { assert (ps + pt)[i] == ps[i]; } else { assert (ps + pt)[i] == pt[i - |ps|]; }
      }
    }
    SplitJoin(ps + pt);
  }

  /** Splitting undoes joining when no part holds a separator. */
  lemma {:induction false} SplitJoin(parts: seq<string>)
    requires |parts| >= 1
    requires forall i :: 0 <= i < |parts| ==> '/' !in parts[i]
    ensures SplitSlash(JoinSlash(parts)) == parts
  {
    if |parts| == 1 {
      SplitNoSlash(parts[0]);
    } else {
      SplitJoin(parts[1..]);
      SplitCons(parts[0], JoinSlash(parts[1..]));
      assert [parts[0]] + parts[1..] == parts;
    }
  }
}

=== FILE: types.dfy ===
/** The entities the storage layer works with: the object reference handed in by the
    caller, the items a backend returns, the response handed back, and an abstract
    backend container that answers every call with a value, not-found or an error. */
module Types {

  datatype Option<T> = None | Some(value: T)

  /** What one backend call returned: a value, the backend's not-found sentinel, or
      any other error. */
  datatype Outcome<T> = Ok(value: T) | NotFound | Err

  /** The storage kinds the layer dispatches on. */
  datatype Kind = Local | LocalMeta | Http | S3 | B2

  /** A stored metadata value: the backends hand back strings and booleans. */
  datatype MetaValue = Str(s: string) | Bool(b: bool)

  /** A Go map together with the order in which one `range` loop visits its keys.
      Go leaves that order unspecified; the model fixes one admissible order. */
  datatype Ordered<V> = Ordered(entries: map<string, V>, order: seq<string>) {
    predicate Valid() {
      && (forall i, j :: 0 <= i < j < |order| ==> order[i] != order[j])
      && (forall k :: k in entries ==> k in order)
      && (forall i :: 0 <= i < |order| ==> order[i] in entries)
    }
  }

  type Enumerated<V> = m: Ordered<V> | m.Valid() witness Ordered(map[], [])

  /** An item's metadata map. */
  type Metadata = Enumerated<MetaValue>

  /** A request's header map: each name with its list of values. */
  type Header = Enumerated<seq<string>>

  /** Map assignment `m[k] = v`: a new key is visited last. */
  function Assign<V>(m: Enumerated<V>, k: string, v: V): (r: Enumerated<V>)
    ensures r.entries == m.entries[k := v]
  {
    if k in m.entries then Ordered(m.entries[k := v], m.order)
    else
      var r := Ordered(m.entries[k := v], m.order + [k]);
      assert forall i :: 0 <= i < |m.order| ==> r.order[i] == m.order[i];
      assert r.Valid();
      r
  }

  /** Where an object lives: the storage kind and the configured path prefix. The
      remaining configuration only reaches the backend connection. */
  datatype StorageConfig = StorageConfig(kind: Kind, pathPrefix: string)

  /** The caller's object reference: logical key, bucket, request path, storage. */
  datatype FileObject = FileObject(key: string, bucket: string, uriPath: string, storage: StorageConfig)

  /** One object as a backend returns it. Each accessor that can fail is an
      `Option`; `None` stands for the accessor's error. */
  datatype Item = Item(
    id: string,
    name: string,
    size: Option<int>,
    etag: Option<string>,
    lastMod: Option<int>,
    metadata: Option<Metadata>,
    content: Option<string>)

  /** One `Contents` entry of a listing. A modification time or size the backend
      could not read is left at its zero value: `None` and 0. */
  datatype Content = Content(key: string, lastModified: Option<int>, etag: string, size: int, storageClass: string)

  /** The S3 `ListBucketResult` record, before it is marshalled. */
  datatype ListResult = ListResult(
    name: string,
    prefix: string,
    marker: string,
    maxKeys: int,
    isTruncated: bool,
    contents: seq<Content>,
    commonPrefixes: seq<string>)

  datatype Body = NoBody | Text(text: string) | Stream(data: string) | Failure | Xml(listing: ListResult)

  /** The outbound representation. Headers are a plain map: setting a name overwrites
      it. Content type, length and modification time are kept apart from it. */
  datatype Response = Response(
    status: int,
    headers: map<string, string>,
    contentType: Option<string>,
    contentLength: Option<int>,
    lastModified: Option<int>,
    body: Body)

  function ErrorResponse(status: int): Response {
    Response(status, map[], None, None, None, Failure)
  }

  function NoContent(status: int): Response {
    Response(status, map[], None, None, None, NoBody)
  }

  function TextResponse(status: int, text: string): Response {
    Response(status, map[], None, None, None, Text(text))
  }

  /** The body a missing item gets. */
  const NotFoundBody := "{\"error\":\"item not found\"}"

  /** The content type of a listing, and of a directory answered by `Get`. */
  const XmlType := "application/xml"

  /** A backend container: the stored items by native key, the keys whose reads fail
      and the keys whose writes and removals fail. */
  datatype Container = Container(items: map<string, Item>, unreadable: set<string>, unwritable: set<string>) {

    function Lookup(key: string): Outcome<Item> {
      if key in unreadable then Err
      else if key in items then Ok(items[key])
      else NotFound
    }

    function Put(key: string, it: Item): Outcome<Container> {
      if key in unwritable then Err else Ok(this.(items := items[key := it]))
    }

    function Remove(key: string): Outcome<Container> {
      if key in unwritable then Err else Ok(this.(items := items - {key}))
    }
  }

  /** The result of resolving the backend connection for a storage configuration. */
  datatype Client = Unavailable | Connected(container: Container)

  /** What a writing operation hands back: the response, and the backend as it is
      afterwards. */
  datatype Effect = Effect(response: Response, client: Client)

  /** One page of the backend's flat listing and the marker it returned. */
  datatype Page = Page(items: seq<Item>, nextMarker: string)
}
